=== FILE: README.md ===
# Docling JSON to HTML body renderer, modelled in Dafny

This project models the part of `code.py` that turns a Docling JSON
document into the HTML of its body. The renderer walks `body.children` in
order. It resolves each child's `$ref` pointer (such as `#/texts/3`)
against the document and hands the item it finds to the renderer for its
collection:

- a text item becomes a `<p>`, `<h1>`, `<h2>` or `<h3>`, possibly with `<strong>`, `<em>`, `<u>` or `<del>` inside;
- a table item becomes a line-per-cell `<table>`;
- a picture item becomes an `<img>` with a base64 data URI, or a placeholder when it has no data.

The non-empty fragments are joined with newlines.

The JSON document is an immutable `Json` datatype. Objects keep their
members in order, as a Python dict does. The Python operations the code
applies to values are modelled with the exception each one raises: `in`,
subscripting, `.get`, truthiness, iteration, `.strip()`, `> 1`, `str()`,
`.replace`, `.split`, `.isdigit()` and `.startswith`. Only `KeyError` and
`IndexError` are caught per child (`code.py:126`). Every other error,
such as a `TypeError` from indexing a list with a name or an
`AttributeError` from calling `.get` on a non-dict, ends the whole render.
The model returns that error as its result.

Modules, one per file:

| file | module | models |
|---|---|---|
| seqs.dfy | Seqs | mapping a function over a sequence |
| strings.dfy | Strings | `strip`, `isdigit`, `int`/`str` of naturals, `split`, `join`, `replace` on `str` |
| json.dfy | Json | the JSON value, Python's errors, and the value operations above |
| escape.dfy | Escape | `escape_html`, and the decoding that inverts it |
| markup.dfy | Markup | elements `<t>…</t>`, and the text of a fragment outside its tags |
| reference.dfy | Reference | `resolve_reference` |
| text.dfy | TextItem | `process_text_item` |
| table.dfy | TableItem | `process_table_item` |
| picture.dfy | PictureItem | `process_picture_item` |
| render.dfy | Renderer | `json_to_html` |

Item renderers first decode what they need from the item in the order code.py
evaluates it (`ReadTextNode`, `ReadCell`, `ReadAll`). Pure functions
then build the markup (`RenderText`, `CellLine`, `TableLines`). Once
decoding succeeds, the markup code cannot fail, so the errors come out in
the order code.py raises them.

Three behaviours of the code are easy to misread, and the model follows
the code in each:

- The comment at code.py:155 calls long bold text a heading. The code still applies the `<em>`, `<u>` or `<del>` wrapping of code.py:165-172 inside the `<h2>`, so long bold italic text is `<h2><em>…</em></h2>`.
- A reference whose walk raises `TypeError` is not skipped. An example is a name segment applied to a list, as in `#/texts/x`. The `except` at code.py:126 names only `KeyError` and `IndexError`, so such a reference aborts the render.
- A reference is resolved (code.py:116) before its prefix is looked at (code.py:119-124). A reference outside `texts`, `tables` and `pictures` that fails to resolve is therefore handled like any other failing reference.

## Model

| member | source | states |
|---|---|---|
| Strings.Strip | code.py:143 | `strip()` gives a slice of the text with only whitespace before and after it, neither end of which is whitespace; it is empty exactly when the text is all whitespace |
| Strings.Split | code.py:80 | `split('/')` gives at least one piece, no piece holds the separator, and joining the pieces with it gives the text back |
| Strings.StripPadded | code.py:143 | `strip()` removes exactly the whitespace added around a text that neither starts nor ends with whitespace |
| Strings.SplitJoin | code.py:80 | splitting pieces joined with a separator they do not contain gives back exactly those pieces |
| Strings.DecimalReadsBack | code.py:86 | `int()` of the digits `str()` writes for a natural number is that number, and there is no leading zero |
| Json.GetItem | code.py:84-89 | `v[k]` raises KeyError exactly for a dict without that key (or an int key), IndexError exactly for an index past the end of a list or str, and TypeError otherwise when it fails |
| Json.Get | code.py:143 | `.get(name, default)` fails, with AttributeError, exactly on non-dicts; on a dict it gives the key's value, or the default when the key is absent |
| Json.Iterate | code.py:111 | iteration yields a list's items, a str's characters or a dict's keys; it is empty exactly when the value is falsy |
| Json.Contains | code.py:107-112 | `name in v` is key membership for a dict, equality with some element for a list, and an occurrence at some position for a str; it fails, with TypeError, exactly on values that are not a dict, list or str |
| Json.StripValue | code.py:143 | `.strip()` fails, with AttributeError, exactly on values that are not str; a str gives its stripped text, which is empty exactly when the text is all whitespace |
| Json.AsNumber | code.py:217-221 | `v > 1` compares an int as itself and a bool as 0 or 1; it fails, with TypeError, exactly when `v` is neither; a value above 1 can only come from an int |
| Json.PyStr | code.py:252 | `str()` of a str is the str itself, of None `None`, of a bool `True` or `False`, of an int its decimal digits; only lists and dicts, whose repr is not modelled, give no text |
| Escape.EscapeHtml | code.py:257-275 | the five chained `replace` calls equal escaping each special character once, leave no raw `<`, `>`, `"` or `'`, and leave text with no special character unchanged |
| Escape.UnescapeEscape | code.py:270-275 | decoding `&#x27;`, `&quot;`, `&gt;`, `&lt;` and then `&amp;` gives back exactly the escaped text |
| Reference.SegmentKey | code.py:86-89 | a segment is an int subscript exactly when it is all digits, and then the subscript is `int()` of those digits; any other segment is a name subscript with the segment itself |
| Reference.Step | code.py:84-89 | one step indexes a list or str with a digit segment (IndexError past the end), looks up a dict key otherwise, and raises KeyError on a dict given digits and TypeError on everything else |
| Reference.Walk | code.py:83-90 | a walk fails only with KeyError, IndexError or TypeError |
| Reference.ResolveReference | code.py:68-90 | a non-str reference raises AttributeError; `#/` followed by segments without `/` or `#`, joined with `/`, walks exactly those segments from the root (the pointer clause); failures are KeyError, IndexError, TypeError or AttributeError |
| Reference.WalkAppend | code.py:84-89 | walking a path in two parts is walking the first part and then the second from where it ended; the first failing segment decides the error |
| Reference.PathOfJoin | code.py:80 | deleting every `#/` and splitting on `/` gives back the segments a pointer was written from, when none holds `/` or `#` |
| Reference.PathOf | code.py:80 | a reference has at least one segment, and no segment holds `/` |
| Reference.PathOfJoinsBack | code.py:80 | the segments joined with `/` give back the reference with every `#/` deleted |
| Reference.CollectionItem | code.py:80-90 | `#/name/i` resolves to item `i` of the document's `name` list, with its KeyError or IndexError when either is missing |
| TextItem.RenderText | code.py:153-182 | non-empty text is the block element (h2 for long bold, otherwise p for bold, h1 for title, h3 for heading, p otherwise) around at most one of strong, em, u, del around the escaped text |
| TextItem.ReadTextNode | code.py:150-169 | each flag is the truthiness of `formatting.get(flag)` and the label is `item.get('label', 'paragraph')`; flags default to unset without `formatting`, the label to `paragraph`; it fails, with AttributeError, exactly when `formatting` is not a dict |
| TextItem.ProcessTextItem | code.py:133-182 | the result is `''` exactly when the item's `text` (default `''`) is a str of whitespace; it fails, always with AttributeError, exactly when the item is not a dict, its text is not a str, or non-blank text comes with a `formatting` that is not a dict; otherwise it is the markup of the stripped text with the item's flags and label |
| TextItem.ShortBoldItem | code.py:143-160 | a bold item whose text is whitespace, then at most 50 characters `core` with no whitespace at either end, then whitespace, renders as `<p><strong>`, the escaped `core` and `</strong></p>` |
| TextItem.LongBoldItem | code.py:143-176 | a bold item whose stripped text `core` has more than 50 characters renders as an `<h2>` around the escaped `core`, wrapped in the first of em, u, del whose flag is set |
| TextItem.LabelledItem | code.py:161-182 | a non-bold item renders as `<h1>` for label `title`, `<h3>` for `heading` and `<p>` for any other label, around the escaped text wrapped in the first of em, u, del whose flag is set |
| TextItem.PaddedItem | code.py:143 | whitespace around an item's text changes nothing in its markup |
| TextItem.ItemVisibleText | code.py:143-182 | a dict item whose text is a str renders whenever its text is blank or its `formatting` is a dict; removing the tags and decoding the entities then gives back its stripped text |
| TextItem.VisibleText | code.py:159-172 | removing the tags and decoding the entities of the fragment gives back the stripped text |
| TextItem.WrappedText | code.py:159-182 | the text of a block element, with or without one inline element inside, is the content inside both |
| TextItem.BoldHeadingBoundary | code.py:154-160 | bold text of at most 50 characters is `<p><strong>`, its escape and `</strong></p>`; longer bold text is an `<h2>` |
| TextItem.BoldIgnoresLabel | code.py:154-176 | the label plays no part for bold text |
| TextItem.ShortBoldIgnoresOtherFlags | code.py:154-160 | short bold text ignores the italic, underline and strikethrough flags and the label |
| TableItem.CellLinesAt | code.py:206-223 | a row gets one line per cell, and line `j` is the line of cell `j` |
| TableItem.RowsCellLinesShape | code.py:203-223 | one group of lines per row, in order; row `i`'s group is its cells' lines, one per cell |
| TableItem.BlocksLayout | code.py:203-225 | row `i`'s lines start after every earlier row's cells and two `<tr>` lines: its `<tr>`, its cell lines in order, its `</tr>` |
| TableItem.BlocksLength | code.py:203-225 | the rows emit nothing but their cell lines and two `<tr>` lines each |
| TableItem.FramedRow | code.py:200-229 | inside `<table>`, row `i` holds `  <tr>`, its cell lines in order, then `  </tr>` |
| TableItem.TableFrame | code.py:200-229 | the table lines open with `<table>`, close with `</table>`, and hold exactly the rows' lines between |
| TableItem.TableRow | code.py:203-225 | row `i` opens with `  <tr>` on line `1 + RowStart(rows, i)` and closes with `  </tr>` right after its last cell |
| TableItem.TableCell | code.py:206-223 | cell `j` of row `i` is on line `2 + RowStart(rows, i) + j` |
| TableItem.ReadSpanAttr | code.py:217-221 | a span attribute, written only above one, reads back as the span a reader sees |
| TableItem.ReadSpansOfSpanAttrs | code.py:216-221 | the rowspan attribute comes before the colspan attribute and both read back |
| TableItem.NoCloseInSpanAttrs | code.py:216-221 | span attributes never contain `>` |
| TableItem.CellLineReadsBack | code.py:207-223 | a cell line reads back as `th` exactly for header cells, the spans shown, and the stripped text after decoding |
| TableItem.SpanOf | code.py:213-219 | a missing span is 1, an int span is itself and a bool span is 0 or 1; comparing a span with 1 fails, with TypeError, exactly when it is neither an int nor a bool |
| TableItem.ReadCell | code.py:207-215 | a cell's text is its stripped `text` (default `''`), it is a header exactly when `column_header` or `row_header` is truthy, and its spans are what `SpanOf` reads; a dict cell reads exactly when its text is a str and both spans compare; a non-dict cell raises AttributeError, and any failure is AttributeError or TypeError |
| TableItem.ReadAllEach | code.py:203-206 | rows and cells read exactly when each of them does, each to its own reading; the first failure's error is the error |
| TableItem.ReadRow | code.py:206-215 | an iterable row reads exactly when each of its cells does, to their readings in order; a row that cannot be iterated raises TypeError |
| TableItem.ReadGrid | code.py:203-215 | an iterable grid reads exactly when each of its rows does, to their readings in order, one row per entry of a list; any failure is AttributeError or TypeError |
| TableItem.ProcessTableItem | code.py:184-229 | `''` exactly when `data` or `grid` is missing or the grid is falsy; otherwise the newline-joined table lines of the grid; it fails exactly when a truthy grid has a row or cell that cannot be read |
| TableItem.ItemRow | code.py:184-229 | a table item whose truthy grid reads as `rows` renders as the newline-joined table lines of `rows`; row `i` of the grid is an iterable whose cell dicts, in order and one per cell, read as `ReadsAs` spells out: the stripped text, either header flag, and the two spans |
| TableItem.GridRowReads | code.py:203-215 | in a grid that reads as `rows`, row `i` iterates to exactly as many cell dicts as `rows[i]` has cells, and dict `j` has a str text whose strip is cell `j`'s text, header exactly when `column_header` or `row_header` is truthy, and the spans `SpanOf` reads |
| TableItem.RowLines | code.py:203-225 | row `i` is emitted as `  <tr>` on line `1 + RowStart(rows, i)`, then the line of each of its cells in order, then `  </tr>` |
| TableItem.RowCells | code.py:206-223 | every cell `j` of row `i` has its own line on line `2 + RowStart(rows, i) + j` |
| PictureItem.ProcessPictureItem | code.py:233-254 | a dict item gives the placeholder exactly when `data` is absent, and with `data` it fails exactly when the data or the format (default `png`) is a list or dict; any failure is TypeError or that unmodelled `str()` |
| PictureItem.SrcReadsBack | code.py:252-254 | the `src` attribute reads back as `data:image/` + format + `;base64,` + data when neither holds `"` |
| PictureItem.DataUriReadsBack | code.py:252 | the data URI gives back its format and payload when the format holds no `;` |
| PictureItem.PictureReadsBack | code.py:244-254 | a picture with str data and format (default `png`) renders as exactly the image tag of `data:image/` + format + `;base64,` + data; when neither holds `"` the `src` attribute reads back as that URI, and when the format also holds no `;` the URI gives back the format and data |
| PictureItem.DefaultsToPng | code.py:249 | without `format` the image is a PNG |
| Renderer.KindOf | code.py:119-124 | the prefixes are tried in the order texts, tables, pictures |
| Renderer.Render | code.py:119-124 | a reference outside the three collections appends nothing; inside one, the output of that collection's renderer is appended, or its error raised |
| Renderer.Attempt | code.py:116-124 | a non-str reference raises AttributeError inside the `try`; a failed walk's error, whatever its kind, is the outcome of the `try` body; a KeyError or IndexError can only come from the walk |
| Renderer.WalkErrorEscapes | code.py:112-128 | a walk that fails with KeyError or IndexError drops the child; any other error, TypeError included, ends the render with that error |
| Renderer.NameIntoListAborts | code.py:112-128 | a reference such as `#/texts/x`, a name applied to a collection that is a list, raises TypeError and ends the render |
| Reference.TwoSegments | code.py:80-90 | `#/<first>/<second>` is subscripted twice from the root, each segment as an int when it is all digits and as a str otherwise; the first failing subscript's error is the result |
| Reference.NameIntoList | code.py:80-90 | `#/<collection>/<name>` into a collection that is a list resolves to TypeError |
| Strings.SubstringOccurs | code.py:112 | `needle in hay` for strs holds exactly when `needle` occurs at some position of `hay` |
| Renderer.Catch | code.py:126-128 | exactly KeyError and IndexError are dropped, leaving nothing appended; every other outcome passes through |
| Renderer.ChildrenOf | code.py:107-108 | a dict document without `body` has no children; with a dict `body`, the children are its `children` member, if any; a document that is not a dict, list or str raises TypeError, the only error possible |
| Renderer.Fragment | code.py:111-128 | a child without `$ref` appends nothing; no KeyError or IndexError escapes a child |
| Renderer.Fragments | code.py:111-128 | at most one part per child, and no KeyError or IndexError escapes |
| Renderer.NonEmpty | code.py:131 | `filter(None, …)` keeps exactly the non-empty parts, each as often as it occurs |
| Renderer.JsonToHtml | code.py:92-131 | a missing `body` or `children` gives `''`; the render never fails with KeyError or IndexError |
| Renderer.CollectParts | code.py:111-128 | the loop with `html_parts` computes exactly the parts of the children, in order |
| Renderer.RenderBody | code.py:104-131 | the function as written, with its loop, equals the functional definition |
| Renderer.FragmentsAppend | code.py:111-128 | the parts of two runs of children are the parts of each, in order; the first failing child decides the error |
| Renderer.FragmentsSingle | code.py:111-128 | one child adds its fragment if it has one, and nothing otherwise |
| Renderer.NonEmptyAppend | code.py:131 | filtering commutes with concatenation, so order is kept |
| Renderer.FragmentsStep | code.py:111-128 | one more child either ends the whole render with its error or appends its fragment, if any, after the parts so far |
| Renderer.UnresolvedSkipped | code.py:116-128 | a reference whose walk raises KeyError or IndexError adds nothing and does not fail |
| Renderer.DanglingIndexSkipped | code.py:116-128 | `#/texts/99` in a document with fewer texts adds nothing |
| Renderer.Dispatches | code.py:116-124 | a resolved reference appends what its collection's renderer makes of the item, errors included; other prefixes add nothing |
| Renderer.NonStringRefAborts | code.py:113-128 | a `$ref` that is not a str ends the render with AttributeError |

## Left out

- `docx_to_json_to_html` (code.py:9-66): document conversion, path handling and file writes are I/O and calls into the Docling library.
- `create_html_shell` (code.py:277-519): a static template with the body spliced in.
- The `__main__` block: fixed paths and printing of exceptions.
- The `print` calls in `json_to_html`: side effects only. `len(children)` inside the first one is modelled, because it fails exactly where iteration fails.
- `strip()` and `isdigit()` use ASCII whitespace and ASCII digits. Python's Unicode classes are wider. A Unicode digit such as `²` passes `isdigit()` and then makes `int()` raise ValueError, which the model does not represent.
- `str()` of a list or dict used as picture data or format is the error `ReprNotModelled`. The model does not compute Python's repr text.
- Floating-point numbers in the document are not modelled. Span values are ints or bools.
- `escape_html` converts a non-str argument with `str()`. Every caller passes a str, so only that case is modelled.
- JSON objects are assumed to have distinct keys, as a parsed document has. Lookup takes the first match.
- Lone surrogate code points (`"\ud800"` in the JSON text) are left out. Python's `str` and `len()` admit them, but a Dafny `char` is a Unicode scalar value and cannot hold one. For every other string, lengths agree with Python's.
- Reference.Walk: its contract states only the possible errors. What a walk returns is stated by `Step`, `WalkAppend` and `ResolveReference`.

=== FILE: escape.dfy ===
/** `escape_html`: five whole-string replacements applied in a fixed
    order, `&` first so that the entities introduced by the later
    replacements are not escaped again. */
module Escape {
  import opened Strings

  predicate IsSpecial(c: char) {
    c == '&' || c == '<' || c == '>' || c == '"' || c == '\''
  }

  /** The entity each special character becomes. */
  function EscapeChar(c: char): string {
    match c
    case '&' => "&amp;"
    case '<' => "&lt;"
    case '>' => "&gt;"
    case '"' => "&quot;"
    case '\'' => "&#x27;"
    case _ => [c]
  }

  /** Reference definition: escape character by character, leaving the
      characters in `plain` as they are. `EscapeExcept(s, {})` is the full
      escape; the decoder below passes through the intermediate stages. */
  function EscapeExcept(s: string, plain: set<char>): (r: string)
    ensures forall i :: 0 <= i < |r| && IsSpecial(r[i]) && r[i] != '&' ==> r[i] in plain
    ensures (forall i :: 0 <= i < |s| ==> s[i] in plain || !IsSpecial(s[i])) ==> r == s
    decreases |s|
  {
    if s == [] then []
    else
      var head := if s[0] in plain then [s[0]] else EscapeChar(s[0]);
      var rest := EscapeExcept(s[1..], plain);
      EscapeCons(s, plain, head, rest);
      head + rest
  }

  /** The first character's piece in front of the escaped remainder keeps
      both properties of the escape. */
  lemma EscapeCons(s: string, plain: set<char>, head: string, rest: string)
    requires s != [] && head == (if s[0] in plain then [s[0]] else EscapeChar(s[0]))
    requires forall i :: 0 <= i < |rest| && IsSpecial(rest[i]) && rest[i] != '&' ==> rest[i] in plain
    requires (forall i :: 0 <= i < |s[1..]| ==> s[1..][i] in plain || !IsSpecial(s[1..][i])) ==> rest == s[1..]
    ensures forall i :: 0 <= i < |head + rest| && IsSpecial((head + rest)[i]) && (head + rest)[i] != '&' ==> (head + rest)[i] in plain
    ensures (forall i :: 0 <= i < |s| ==> s[i] in plain || !IsSpecial(s[i])) ==> head + rest == s
  {
    assert forall i :: 1 <= i < |s| ==> s[1..][i - 1] == s[i];
    assert forall i :: |head| <= i < |head + rest| ==> (head + rest)[i] == rest[i - |head|];
    if forall i :: 0 <= i < |s| ==> s[i] in plain || !IsSpecial(s[i]) {
      assert s[0] in plain || !IsSpecial(s[0]);
      assert s == [s[0]] + s[1..];
    }
  }

  /** `escape_html(text)` for a str argument, as written: the five
      replacements in source order. */
  function EscapeHtml(s: string): (r: string)
    ensures r == EscapeExcept(s, {})
    ensures forall i :: 0 <= i < |r| ==> r[i] != '<' && r[i] != '>' && r[i] != '"' && r[i] != '\''
    ensures (forall i :: 0 <= i < |s| ==> !IsSpecial(s[i])) ==> r == s
  {
    EscapePipelineIsPerChar(s);
    Pipeline(s)
  }

  /** The inverse the entities are designed for: decode `&#x27;`,
      `&quot;`, `&gt;`, `&lt;` and only then `&amp;`. */
  function Unescape(s: string): string {
    Replace(Replace(Replace(Replace(Replace(s, "&#x27;", "'"), "&quot;", "\""), "&gt;", ">"), "&lt;", "<"), "&amp;", "&")
  }

  /** Decoding undoes escaping: escaped text is read back exactly. */
  lemma UnescapeEscape(s: string)
    ensures Unescape(EscapeHtml(s)) == s
  {
    var p0: set<char> := {};
    var p1 := p0 + {'\''};
    var p2 := p1 + {'"'};
    var p3 := p2 + {'>'};
    var p4 := p3 + {'<'};
    var p5 := p4 + {'&'};
    var e1 := Replace(EscapeHtml(s), "&#x27;", "'");
    DecodeOneEntity(s, p0, '\'', "&#x27;");
    var e2 := Replace(e1, "&quot;", "\"");
    DecodeOneEntity(s, p1, '"', "&quot;");
    var e3 := Replace(e2, "&gt;", ">");
    DecodeOneEntity(s, p2, '>', "&gt;");
    var e4 := Replace(e3, "&lt;", "<");
    DecodeOneEntity(s, p3, '<', "&lt;");
    var e5 := Replace(e4, "&amp;", "&");
    DecodeOneEntity(s, p4, '&', "&amp;");
    assert forall x :: IsSpecial(x) ==> x in p5;
    assert e5 == EscapeExcept(s, p5) == s;
  }

  // ---------------------------------------------------------------------
  // Escaping as written equals the per-character reference definition.

  /** The five replacements of `escape_html`, `&` first, in source order. */
  function Pipeline(s: string): string {
    Replace(Replace(Replace(Replace(Replace(s, "&", "&amp;"), "<", "&lt;"), ">", "&gt;"), "\"", "&quot;"), "'", "&#x27;")
  }

  lemma ReplaceCharAbsent(s: string, c: char, rep: string)
    requires c !in s
    ensures Replace(s, [c], rep) == s
  {
    NotSubstringWithoutHead([c], s);
    ReplaceWithoutPattern(s, [c], rep);
  }

  lemma ReplaceCharSingle(c: char, rep: string)
    ensures Replace([c], [c], rep) == rep
  {
    assert [c] <= [c];
    assert [c][1..] == [];
  }

  lemma PipelineAppend(a: string, b: string)
    ensures Pipeline(a + b) == Pipeline(a) + Pipeline(b)
  {
    var a1, b1 := Replace(a, "&", "&amp;"), Replace(b, "&", "&amp;");
    ReplaceCharAppend(a, b, '&', "&amp;");
    var a2, b2 := Replace(a1, "<", "&lt;"), Replace(b1, "<", "&lt;");
    ReplaceCharAppend(a1, b1, '<', "&lt;");
    var a3, b3 := Replace(a2, ">", "&gt;"), Replace(b2, ">", "&gt;");
    ReplaceCharAppend(a2, b2, '>', "&gt;");
    var a4, b4 := Replace(a3, "\"", "&quot;"), Replace(b3, "\"", "&quot;");
    ReplaceCharAppend(a3, b3, '"', "&quot;");
    ReplaceCharAppend(a4, b4, '\'', "&#x27;");
  }

  lemma PipelineChar(x: char)
    ensures Pipeline([x]) == EscapeChar(x)
  {
    if x == '&' || x == '<' || x == '>' {
      PipelineFirstThree(x);
    } else if x == '"' || x == '\'' {
      PipelineLastTwo(x);
    } else {
      ReplaceCharAbsent([x], '&', "&amp;");
      ReplaceCharAbsent([x], '<', "&lt;");
      ReplaceCharAbsent([x], '>', "&gt;");
      ReplaceCharAbsent([x], '"', "&quot;");
      ReplaceCharAbsent([x], '\'', "&#x27;");
    }
  }

  lemma PipelineFirstThree(x: char)
    requires x == '&' || x == '<' || x == '>'
    ensures Pipeline([x]) == EscapeChar(x)
  {
    if x == '&' {
      PipelineAmp();
    } else if x == '<' {
      PipelineLt();
    } else {
      PipelineGt();
    }
  }

  lemma PipelineAmp()
    ensures Pipeline("&") == "&amp;"
  {
    var e := "&amp;";
    ReplaceCharSingle('&', e);
    EntityUntouched(e);
  }

  /** Text without `<`, `>`, `"` or `'` passes the last four
      replacements unchanged. */
  lemma EntityUntouched(e: string)
    requires '<' !in e && '>' !in e && '"' !in e && '\'' !in e
    ensures Replace(Replace(Replace(Replace(e, "<", "&lt;"), ">", "&gt;"), "\"", "&quot;"), "'", "&#x27;") == e
  {
    ReplaceCharAbsent(e, '<', "&lt;");
    ReplaceCharAbsent(e, '>', "&gt;");
    ReplaceCharAbsent(e, '"', "&quot;");
    ReplaceCharAbsent(e, '\'', "&#x27;");
  }

  lemma PipelineLt()
    ensures Pipeline("<") == "&lt;"
  {
    ReplaceCharAbsent("<", '&', "&amp;");
    ReplaceCharSingle('<', "&lt;");
    ReplaceCharAbsent("&lt;", '>', "&gt;");
    ReplaceCharAbsent("&lt;", '"', "&quot;");
    ReplaceCharAbsent("&lt;", '\'', "&#x27;");
  }

  lemma PipelineGt()
    ensures Pipeline(">") == "&gt;"
  {
    ReplaceCharAbsent(">", '&', "&amp;");
    ReplaceCharAbsent(">", '<', "&lt;");
    ReplaceCharSingle('>', "&gt;");
    ReplaceCharAbsent("&gt;", '"', "&quot;");
    ReplaceCharAbsent("&gt;", '\'', "&#x27;");
  }

  lemma PipelineLastTwo(x: char)
    requires x == '"' || x == '\''
    ensures Pipeline([x]) == EscapeChar(x)
  {
    ReplaceCharAbsent([x], '&', "&amp;");
    ReplaceCharAbsent([x], '<', "&lt;");
    ReplaceCharAbsent([x], '>', "&gt;");
    if x == '"' {
      ReplaceCharSingle('"', "&quot;");
      ReplaceCharAbsent("&quot;", '\'', "&#x27;");
    } else {
      ReplaceCharAbsent([x], '"', "&quot;");
      ReplaceCharSingle('\'', "&#x27;");
    }
  }

  lemma {:induction false} EscapePipelineIsPerChar(s: string)
    ensures Pipeline(s) == EscapeExcept(s, {})
    decreases |s|
  {
    if s != [] {
      assert s == [s[0]] + s[1..];
      PipelineAppend([s[0]], s[1..]);
      PipelineChar(s[0]);
      EscapePipelineIsPerChar(s[1..]);
    }
  }

  // ---------------------------------------------------------------------
  // Decoding one entity kind at a time.

  /** Text with no `&` passes through a replacement of an entity untouched. */
  lemma {:induction false} ReplacePassesPlain(p: string, rest: string, pat: string, rep: string)
    requires pat != [] && pat[0] !in p
    ensures Replace(p + rest, pat, rep) == p + Replace(rest, pat, rep)
    decreases |p|
  {
    if p == [] {
      assert p + rest == rest;
    } else {
      var s := p + rest;
      assert s[0] == p[0] && s[1..] == p[1..] + rest;
      assert !(pat <= s);
      assert p[1..] + Replace(rest, pat, rep) == p[1..] + Replace(rest, pat, rep);
      ReplacePassesPlain(p[1..], rest, pat, rep);
      assert [p[0]] + p[1..] == p;
    }
  }

  function Piece(x: char, plain: set<char>): string {
    if x in plain then [x] else EscapeChar(x)
  }

  lemma EntityShape(x: char)
    requires IsSpecial(x)
    ensures |EscapeChar(x)| >= 4 && EscapeChar(x)[0] == '&'
    ensures '&' !in EscapeChar(x)[1..]
  {
  }

  lemma EntitiesDiffer(x: char, c: char)
    requires IsSpecial(x) && IsSpecial(c) && x != c
    ensures EscapeChar(x)[1] != EscapeChar(c)[1]
  {
  }

  lemma DecodeMatchingEntity(pat: string, rest: string, rep: string)
    requires pat != []
    ensures Replace(pat + rest, pat, rep) == rep + Replace(rest, pat, rep)
  {
    var s := pat + rest;
    assert pat <= s;
    assert s[|pat|..] == rest;
  }

  lemma DecodeOtherEntity(e: string, rest: string, pat: string, rep: string)
    requires |e| >= 2 && |pat| >= 2 && e[0] == pat[0] && e[1] != pat[1]
    requires pat[0] !in e[1..]
    ensures Replace(e + rest, pat, rep) == e + Replace(rest, pat, rep)
  {
    var s := e + rest;
    assert s[1] == e[1];
    assert !(pat <= s);
    assert s[1..] == e[1..] + rest;
    assert Replace(s, pat, rep) == [s[0]] + Replace(s[1..], pat, rep);
    ReplacePassesPlain(e[1..], rest, pat, rep);
    assert [e[0]] + e[1..] == e;
  }

  /** One piece of partially escaped text under the decoding of the entity
      of `c`: the entity of `c` becomes `c`, every other piece is kept. */
  lemma DecodePiece(x: char, rest: string, plain: set<char>, c: char)
    requires IsSpecial(c) && c !in plain && '&' !in plain
    ensures Replace(Piece(x, plain) + rest, EscapeChar(c), [c])
         == Piece(x, plain + {c}) + Replace(rest, EscapeChar(c), [c])
  {
    var pat := EscapeChar(c);
    EntityShape(c);
    var p := Piece(x, plain);
    if x == c {
      DecodeMatchingEntity(pat, rest, [c]);
    } else if x in plain || !IsSpecial(x) {
      ReplacePassesPlain(p, rest, pat, [c]);
    } else {
      EntityShape(x);
      EntitiesDiffer(x, c);
      DecodeOtherEntity(p, rest, pat, [c]);
    }
  }

  lemma {:induction false} DecodeOneEntity(s: string, plain: set<char>, c: char, entity: string)
    requires IsSpecial(c) && c !in plain && '&' !in plain
    requires entity == EscapeChar(c)
    ensures Replace(EscapeExcept(s, plain), entity, [c]) == EscapeExcept(s, plain + {c})
    decreases |s|
  {
    if s != [] {
      DecodePiece(s[0], EscapeExcept(s[1..], plain), plain, c);
      DecodeOneEntity(s[1..], plain, c, entity);
    }
  }
}

=== FILE: json.dfy ===
/** The in-memory JSON document the renderer walks, and the Python
    operations the renderer applies to its values: subscripting, `in`,
    `dict.get`, truthiness, iteration, `.strip()`, `> 1` and `str()`.
    Each operation fails with the exception Python raises for it. */
module Json {
  import opened Strings

  /** A JSON value. An object is its members in insertion order, as a
      Python dict iterates them; a parsed object never repeats a key. */
  datatype Json =
    | JNull
    | JBool(b: bool)
    | JInt(i: int)
    | JStr(s: string)
    | JArr(items: seq<Json>)
    | JObj(fields: seq<Field>)

  datatype Field = Field(name: string, value: Json)

  datatype Option<+T> = None | Some(value: T) {
    function GetOr(default: T): T {
      match this
      case Some(v) => v
      case None => default
    }
  }

  /** The exceptions the renderer can raise. `ReprNotModelled` stands for
      `str()` of a list or dict, whose text this model does not compute. */
  datatype PyError = KeyError | IndexError | TypeError | AttributeError | ReprNotModelled

  datatype Result<+T> = Ok(value: T) | Err(error: PyError) {
    predicate IsFailure() {
      Err?
    }

    function PropagateFailure<U>(): Result<U>
      requires Err?
    {
      Err(error)
    }

    function Extract(): T
      requires Ok?
    {
      value
    }
  }

  /** A subscript: `v[name]` with a str or `v[index]` with an int. */
  datatype Key = KName(name: string) | KIndex(index: nat)

  predicate HasKey(fields: seq<Field>, name: string) {
    exists i :: 0 <= i < |fields| && fields[i].name == name
  }

  /** The value stored under `name`, from its first member. */
  function Lookup(fields: seq<Field>, name: string): (r: Option<Json>)
    ensures r.None? <==> !HasKey(fields, name)
    ensures r.Some? ==> Field(name, r.value) in fields
    decreases |fields|
  {
    if fields == [] then None
    else if fields[0].name == name then Some(fields[0].value)
    else
      var r := Lookup(fields[1..], name);
      assert forall i :: 1 <= i < |fields| ==> fields[i] == fields[1..][i - 1];
      r
  }

  /** `v[k]`: dicts look up str keys (an int key is never present, JSON
      keys being strings), lists and strings take in-range int indices,
      anything else is not subscriptable. */
  function GetItem(v: Json, k: Key): (r: Result<Json>)
    ensures r.Err? ==> r.error in {KeyError, IndexError, TypeError}
    ensures r == Err(KeyError) <==> v.JObj? && (k.KIndex? || !HasKey(v.fields, k.name))
    ensures r == Err(IndexError) <==>
              k.KIndex? && ((v.JArr? && k.index >= |v.items|) || (v.JStr? && k.index >= |v.s|))
    ensures k.KName? ==> (r.Ok? <==> v.JObj? && HasKey(v.fields, k.name))
    ensures k.KName? && r.Ok? ==> r == Ok(Member(v, k.name).value)
  {
    match v
    case JObj(fields) =>
      if k.KIndex? then Err(KeyError)
      else (match Lookup(fields, k.name)
            case Some(x) => Ok(x)
            case None => Err(KeyError))
    case JArr(items) =>
      if k.KName? then Err(TypeError)
      else if k.index < |items| then Ok(items[k.index])
      else Err(IndexError)
    case JStr(s) =>
      if k.KName? then Err(TypeError)
      else if k.index < |s| then Ok(JStr([s[k.index]]))
      else Err(IndexError)
    case _ => Err(TypeError)
  }

  /** `name in v`: key membership for a dict, element equality for a list,
      substring for a str; other values are not iterable. */
  function Contains(v: Json, name: string): (r: Result<bool>)
    ensures r.Err? <==> !(v.JObj? || v.JArr? || v.JStr?)
    ensures r.Err? ==> r.error == TypeError
    ensures v.JObj? ==> r == Ok(HasKey(v.fields, name))
    ensures v.JArr? ==> r == Ok(exists i :: 0 <= i < |v.items| && v.items[i] == JStr(name))
    ensures v.JStr? ==> r == Ok(exists k :: OccursAt(name, v.s, k))
  {
    match v
    case JObj(fields) => Ok(HasKey(fields, name))
    case JArr(items) => Ok(JStr(name) in items)
    case JStr(s) => SubstringOccurs(name, s); Ok(IsSubstring(name, s))
    case _ => Err(TypeError)
  }

  /** The member `name` of a dict, if it has one. */
  function Member(v: Json, name: string): Option<Json> {
    if v.JObj? then Lookup(v.fields, name) else None
  }

  /** `v.get('text', '')` of a dict: the text of a text item or a cell. */
  function TextField(v: Json): Json {
    Member(v, "text").GetOr(JStr(""))
  }

  /** `v.get(name, default)`: only dicts have `get`. */
  function Get(v: Json, name: string, default: Json): (r: Result<Json>)
    ensures r.Err? <==> !v.JObj?
    ensures r.Err? ==> r.error == AttributeError
    ensures v.JObj? && !HasKey(v.fields, name) ==> r == Ok(default)
    ensures v.JObj? && HasKey(v.fields, name) ==> r.Ok? && Field(name, r.value) in v.fields
    ensures v.JObj? ==> r == Ok(Member(v, name).GetOr(default))
  {
    match v
    case JObj(fields) =>
      (match Lookup(fields, name)
       case Some(x) => Ok(x)
       case None => Ok(default))
    case _ => Err(AttributeError)
  }

  /** Python truthiness: None, False, 0 and empty containers are false. */
  predicate Truthy(v: Json) {
    match v
    case JNull => false
    case JBool(b) => b
    case JInt(i) => i != 0
    case JStr(s) => s != []
    case JArr(items) => items != []
    case JObj(fields) => fields != []
  }

  /** `for x in v`: a list yields its items, a str its one-character
      strings, a dict its keys in order; other values are not iterable. */
  function Iterate(v: Json): (r: Result<seq<Json>>)
    ensures r.Err? <==> !(v.JArr? || v.JStr? || v.JObj?)
    ensures r.Err? ==> r.error == TypeError
    ensures v.JArr? ==> r == Ok(v.items)
    ensures r.Ok? ==> |r.value| == (if v.JArr? then |v.items| else if v.JStr? then |v.s| else |v.fields|)
    ensures r.Ok? ==> (r.value == [] <==> !Truthy(v))
    ensures v.JStr? && r.Ok? ==> forall i :: 0 <= i < |r.value| ==> r.value[i] == JStr([v.s[i]])
    ensures v.JObj? && r.Ok? ==> forall i :: 0 <= i < |r.value| ==> r.value[i] == JStr(v.fields[i].name)
  {
    match v
    case JArr(items) => Ok(items)
    case JStr(s) => Ok(seq(|s|, i requires 0 <= i < |s| => JStr([s[i]])))
    case JObj(fields) => Ok(seq(|fields|, i requires 0 <= i < |fields| => JStr(fields[i].name)))
    case _ => Err(TypeError)
  }

  /** `v.strip()`: only strings have `strip`. */
  function StripValue(v: Json): (r: Result<string>)
    ensures r.Err? <==> !v.JStr?
    ensures r.Err? ==> r.error == AttributeError
    ensures r.Ok? ==> (r.value == [] <==> AllSpace(v.s))
    ensures v.JStr? ==> r == Ok(Strip(v.s))
  {
    if v.JStr? then Ok(Strip(v.s)) else Err(AttributeError)
  }

  /** The integer a value stands for in `v > 1`: an int is itself, a bool
      is 0 or 1; comparing anything else with an int is a TypeError. */
  function AsNumber(v: Json): (r: Result<int>)
    ensures r.Err? <==> !(v.JInt? || v.JBool?)
    ensures r.Err? ==> r.error == TypeError
    ensures r.Ok? && r.value > 1 ==> v == JInt(r.value)
    ensures v.JInt? ==> r == Ok(v.i)
    ensures v.JBool? ==> r == Ok(if v.b then 1 else 0)
  {
    match v
    case JInt(i) => Ok(i)
    case JBool(b) => Ok(if b then 1 else 0)
    case _ => Err(TypeError)
  }

  /** `str(v)` as an f-string field renders it, for scalar values. */
  function PyStr(v: Json): (r: Result<string>)
    ensures r.Err? <==> v.JArr? || v.JObj?
    ensures v.JStr? ==> r == Ok(v.s)
    ensures v == JNull ==> r == Ok("None")
    ensures v.JBool? ==> r == Ok(if v.b then "True" else "False")
    ensures v.JInt? ==> r == Ok(IntToString(v.i))
  {
    match v
    case JNull => Ok("None")
    case JBool(b) => Ok(if b then "True" else "False")
    case JInt(i) => Ok(IntToString(i))
    case JStr(s) => Ok(s)
    case _ => Err(ReprNotModelled)
  }
}

=== FILE: markup.dfy ===
/** Markup vocabulary shared by the item renderers: an element written as
    an opening tag, its content and a closing tag, and the text a reader
    sees in a fragment once every `<...>` tag is removed. */
module Markup {

  /** `<tag>inner</tag>`. */
  function Element(tag: string, inner: string): string {
    "<" + tag + ">" + inner + "</" + tag + ">"
  }

  /** What follows the first `>` of `s`; nothing if the tag never closes. */
  function AfterTag(s: string): (r: string)
    ensures |r| <= |s|
    decreases |s|
  {
    if s == [] then []
    else if s[0] == '>' then s[1..]
    else AfterTag(s[1..])
  }

  /** The characters of a fragment outside its tags. */
  function TextContent(s: string): string
    decreases |s|
  {
    if s == [] then []
    else if s[0] == '<' then TextContent(AfterTag(s[1..]))
    else [s[0]] + TextContent(s[1..])
  }

  lemma {:induction false} AfterTagSkips(x: string, rest: string)
    requires '>' !in x
    ensures AfterTag(x + ">" + rest) == rest
    decreases |x|
  {
    var s := x + ">" + rest;
    if x == [] {
      assert s[0] == '>' && s[1..] == rest;
    } else {
      assert s[0] == x[0] && s[1..] == x[1..] + ">" + rest;
      AfterTagSkips(x[1..], rest);
    }
  }

  /** A tag contributes no text. */
  lemma TextContentSkipsTag(x: string, rest: string)
    requires '>' !in x
    ensures TextContent("<" + x + ">" + rest) == TextContent(rest)
  {
    var s := "<" + x + ">" + rest;
    assert s[1..] == x + ">" + rest;
    AfterTagSkips(x, rest);
  }

  /** Text without `<` is all content. */
  lemma {:induction false} TextContentKeepsPlain(e: string, rest: string)
    requires '<' !in e
    ensures TextContent(e + rest) == e + TextContent(rest)
    decreases |e|
  {
    if e == [] {
      assert e + rest == rest;
    } else {
      var s := e + rest;
      assert s[0] == e[0] && s[1..] == e[1..] + rest;
      TextContentKeepsPlain(e[1..], rest);
      assert [e[0]] + e[1..] == e;
    }
  }

  /** The text of an element around plain text is that text. */
  lemma ElementText(tag: string, e: string, rest: string)
    requires '>' !in tag && '<' !in e
    ensures TextContent(Element(tag, e) + rest) == e + TextContent(rest)
  {
    var close := "/" + tag;
    assert Element(tag, e) + rest == "<" + tag + ">" + (e + ("<" + close + ">" + rest));
    TextContentSkipsTag(tag, e + ("<" + close + ">" + rest));
    TextContentKeepsPlain(e, "<" + close + ">" + rest);
    TextContentSkipsTag(close, rest);
  }

  /** The text of two nested elements around plain text is that text. */
  lemma NestedElementText(outer: string, inner: string, e: string)
    requires '>' !in outer && '>' !in inner && '<' !in e
    ensures TextContent(Element(outer, Element(inner, e))) == e
  {
    var closeOuter := "</" + outer + ">";
    assert Element(outer, Element(inner, e)) == "<" + outer + ">" + (Element(inner, e) + closeOuter);
    TextContentSkipsTag(outer, Element(inner, e) + closeOuter);
    ElementText(inner, e, closeOuter);
    assert closeOuter == "<" + ("/" + outer) + ">" + [];
    TextContentSkipsTag("/" + outer, []);
  }
}

=== FILE: picture.dfy ===
/** `process_picture_item`: a picture item becomes an `<img>` whose `src`
    is a base64 data URI built from the item's data and format, or a
    placeholder when the item carries no data. */
module PictureItem {
  import opened Strings
  import opened Json

  /** What a picture without data renders as. */
  const Placeholder: string := "<div class=\"image-placeholder\">[Missing Image]</div>"

  /** The format assumed when the item names none. */
  const DefaultFormat: string := "png"

  /** The data URI of an image: neither part is escaped or checked. */
  function DataUri(format: string, payload: string): string {
    "data:image/" + format + ";base64," + payload
  }

  /** The fixed attributes that follow the `src` attribute in code.py. */
  const ImgAttrs: string := " alt=\"Embedded Image\" style=\"max-width:100%; height:auto; margin:10px 0;\" />"

  function ImgTag(src: string): string {
    "<img src=\"" + src + "\"" + ImgAttrs
  }

  /** `process_picture_item(picture_item)`: `data` is looked up with a
      subscript after a membership test, `format` with `get`, and both are
      formatted with `str()`. */
  function ProcessPictureItem(item: Json): (r: Result<string>)
    ensures r.Err? ==> r.error in {TypeError, ReprNotModelled}
    ensures item.JObj? ==> (r == Ok(Placeholder) <==> !HasKey(item.fields, "data"))
    ensures (item.JArr? || item.JStr?) ==> (r == Ok(Placeholder) <==> Contains(item, "data") == Ok(false))
    ensures item.JObj? && HasKey(item.fields, "data") ==>
              (r.Ok? <==> !Member(item, "data").value.JArr? && !Member(item, "data").value.JObj?
                          && !Member(item, "format").GetOr(JStr(DefaultFormat)).JArr?
                          && !Member(item, "format").GetOr(JStr(DefaultFormat)).JObj?)
  {
    var hasData :- Contains(item, "data");
    if !hasData then Ok(Placeholder)
    else
      var data :- GetItem(item, KName("data"));
      var format := Get(item, "format", JStr(DefaultFormat)).value;
      var formatText :- PyStr(format);
      var dataText :- PyStr(data);
      Ok(ImgTag(DataUri(formatText, dataText)))
  }

  // ---------------------------------------------------------------------
  // Reading the image back out of the tag.

  /** The `src` attribute of a tag that opens with `<img src="`. */
  function SrcOf(html: string): Option<string> {
    var open := "<img src=\"";
    if !(open <= html) then None else Some(TakeUntil(html[|open|..], '"'))
  }

  /** The format and payload of a base64 image data URI: the format runs
      to the first `;`, which must begin `;base64,`. */
  function ReadDataUri(src: string): Option<(string, string)> {
    var head := "data:image/";
    if !(head <= src) then None
    else
      var rest := src[|head|..];
      var format := TakeUntil(rest, ';');
      var marker := ";base64,";
      var tail := rest[|format|..];
      if !(marker <= tail) then None else Some((format, tail[|marker|..]))
  }

  /** The tag's `src` is the data URI it was built from, so long as
      neither part contains a double quote (base64 text never does). */
  lemma SrcReadsBack(format: string, payload: string)
    requires '"' !in format && '"' !in payload
    ensures SrcOf(ImgTag(DataUri(format, payload))) == Some(DataUri(format, payload))
  {
    var src := DataUri(format, payload);
    assert '"' !in src by {
      assert src == "data:image/" + format + (";base64," + payload);
    }
    SrcOfTag(src, ImgAttrs);
  }

  /** Whatever attributes follow it, a quoted `src` without a quote in
      it is read back whole. */
  lemma SrcOfTag(src: string, attrs: string)
    requires '"' !in src
    ensures SrcOf("<img src=\"" + src + "\"" + attrs) == Some(src)
  {
    var open := "<img src=\"";
    var html := open + src + "\"" + attrs;
    assert html == open + (src + ['"'] + attrs);
    assert html[|open|..] == src + ['"'] + attrs;
    TakeUntilStops(src, '"', attrs);
  }

  /** The data URI gives back its format and payload, so long as the
      format contains no `;`. */
  lemma DataUriReadsBack(format: string, payload: string)
    requires ';' !in format
    ensures ReadDataUri(DataUri(format, payload)) == Some((format, payload))
  {
    var head := "data:image/";
    var marker := ";base64,";
    var src := DataUri(format, payload);
    assert src == head + (format + (marker + payload));
    var rest := src[|head|..];
    assert rest == format + [';'] + ("base64," + payload);
    TakeUntilStops(format, ';', "base64," + payload);
    assert rest[|format|..] == marker + payload;
  }

  /** A picture whose data and format are strings renders as exactly the
      image tag of their data URI. Its `src` reads back as that URI when
      neither holds `"`, and the URI gives back the format and the data
      when the format also holds no `;`. */
  lemma PictureReadsBack(item: Json, format: string, payload: string)
    requires item.JObj? && Member(item, "data") == Some(JStr(payload))
    requires Member(item, "format").GetOr(JStr(DefaultFormat)) == JStr(format)
    ensures ProcessPictureItem(item) == Ok(ImgTag(DataUri(format, payload)))
    ensures '"' !in format && '"' !in payload ==>
              SrcOf(ProcessPictureItem(item).value) == Some(DataUri(format, payload))
    ensures '"' !in format && '"' !in payload && ';' !in format ==>
              ReadDataUri(SrcOf(ProcessPictureItem(item).value).value) == Some((format, payload))
  {
    assert HasKey(item.fields, "data");
    if '"' !in format && '"' !in payload {
      SrcReadsBack(format, payload);
    }
    if ';' !in format {
      DataUriReadsBack(format, payload);
    }
  }

  /** A picture without `format` is a PNG. */
  lemma DefaultsToPng(item: Json, payload: string)
    requires item.JObj? && Member(item, "data") == Some(JStr(payload)) && Member(item, "format").None?
    ensures ProcessPictureItem(item) == Ok(ImgTag(DataUri("png", payload)))
  {
    assert HasKey(item.fields, "data");
  }
}

=== FILE: reference.dfy ===
/** `resolve_reference`: a JSON pointer such as `#/texts/3` is walked
    from the document root, one path segment at a time. */
module Reference {
  import opened Strings
  import opened Json

  /** A segment made only of digits becomes an int subscript; any other
      segment, the empty one included, is a str key. */
  function SegmentKey(part: string): (k: Key)
    ensures k.KIndex? <==> IsDigits(part)
    ensures k.KName? ==> k.name == part
    ensures IsDigits(part) ==> k == KIndex(DigitsValue(part))
  {
    if IsDigits(part) then KIndex(DigitsValue(part)) else KName(part)
  }

  /** One step of the walk, `current[int(part)]` or `current[part]`. */
  function Step(v: Json, part: string): (r: Result<Json>)
    ensures v.JArr? && IsDigits(part) ==>
              r == (if DigitsValue(part) < |v.items| then Ok(v.items[DigitsValue(part)]) else Err(IndexError))
    ensures v.JArr? && !IsDigits(part) ==> r == Err(TypeError)
    ensures v.JObj? && IsDigits(part) ==> r == Err(KeyError)
    ensures v.JObj? && !IsDigits(part) ==>
              (r.Ok? <==> HasKey(v.fields, part)) && (r.Ok? ==> Field(part, r.value) in v.fields)
              && (r.Err? ==> r.error == KeyError)
    ensures v.JStr? && IsDigits(part) ==>
              r == (if DigitsValue(part) < |v.s| then Ok(JStr([v.s[DigitsValue(part)]])) else Err(IndexError))
    ensures v.JStr? && !IsDigits(part) ==> r == Err(TypeError)
    ensures (v.JNull? || v.JBool? || v.JInt?) ==> r == Err(TypeError)
  {
    GetItem(v, SegmentKey(part))
  }

  /** The segments of a reference: every `#/` deleted, then split on `/`. */
  function PathOf(ref: string): (path: seq<string>)
    ensures |path| >= 1
    ensures forall k :: 0 <= k < |path| ==> '/' !in path[k]
  {
    Split(Replace(ref, "#/", ""), '/')
  }

  /** The segments of a reference, joined back with `/`, are the reference
      with every `#/` deleted. */
  lemma PathOfJoinsBack(ref: string)
    ensures Join(PathOf(ref), "/") == Replace(ref, "#/", "")
  {
    var s := Replace(ref, "#/", "");
    assert Join(Split(s, '/'), ['/']) == s;
  }

  /** The walk over a path, left to right; the first failing step's error
      is the walk's error. */
  function Walk(v: Json, path: seq<string>): (r: Result<Json>)
    ensures r.Err? ==> r.error in {KeyError, IndexError, TypeError}
    decreases |path|
  {
    if path == [] then Ok(v)
    else
      var next :- Step(v, path[0]);
      Walk(next, path[1..])
  }

  /** Segments a pointer can spell out: at least one, none holding the
      `/` separator or the `#` of the pointer's head. */
  predicate PlainSegments(segs: seq<string>) {
    |segs| >= 1 && forall i :: 0 <= i < |segs| ==> '/' !in segs[i] && '#' !in segs[i]
  }

  /** The pointer that spells out `segs`: `#/`, then the segments
      joined with `/`. */
  function Pointer(segs: seq<string>): string {
    "#/" + Join(segs, "/")
  }

  /** `resolve_reference(ref, json_content)`; a reference that is not a
      str has no `replace`. A pointer `#/` followed by plain segments
      joined with `/` walks exactly those segments. */
  function ResolveReference(ref: Json, doc: Json): (r: Result<Json>)
    ensures !ref.JStr? ==> r == Err(AttributeError)
    ensures ref.JStr? ==> r == Walk(doc, PathOf(ref.s))
    ensures forall segs {:trigger Pointer(segs)} :: PlainSegments(segs) && ref == JStr(Pointer(segs)) ==> r == Walk(doc, segs)
    ensures r.Err? ==> r.error in {KeyError, IndexError, TypeError, AttributeError}
  {
    if !ref.JStr? then Err(AttributeError)
    else
      PathOfJoinAll();
      Walk(doc, PathOf(ref.s))
  }

  /** Walking a path in two parts is walking the first part and then the
      second from where the first ended. */
  lemma {:induction false} WalkAppend(v: Json, a: seq<string>, b: seq<string>)
    ensures Walk(v, a + b) == (match Walk(v, a) case Ok(w) => Walk(w, b) case Err(e) => Err(e))
    decreases |a|
  {
    if a == [] {
      assert a + b == b;
    } else {
      assert (a + b)[0] == a[0] && (a + b)[1..] == a[1..] + b;
      match Step(v, a[0])
      case Err(e) =>
      case Ok(next) =>
        WalkAppend(next, a[1..], b);
    }
  }

  lemma {:induction false} JoinKeepsOut(parts: seq<string>, sep: string, c: char)
    requires c !in sep
    requires forall i :: 0 <= i < |parts| ==> c !in parts[i]
    ensures c !in Join(parts, sep)
    decreases |parts|
  {
    if |parts| > 1 {
      JoinKeepsOut(parts[1..], sep, c);
    }
  }

  /** The segments read out of `#/` followed by plain segments joined
      with `/` are exactly those segments: `#/` occurs only at the head,
      and splitting undoes the join. */
  lemma PathOfJoin(segs: seq<string>)
    requires PlainSegments(segs)
    ensures PathOf(Pointer(segs)) == segs
  {
    var body := Join(segs, "/");
    var ref := "#/" + body;
    JoinKeepsOut(segs, "/", '#');
    NotSubstringWithoutHead("#/", body);
    ReplaceWithoutPattern(body, "#/", "");
    assert "#/" <= ref && ref[2..] == body;
    assert Replace(ref, "#/", "") == Replace(body, "#/", "") == body;
    SplitJoin(segs, '/');
  }

  lemma PathOfJoinAll()
    ensures forall segs :: PlainSegments(segs) ==> PathOf(Pointer(segs)) == segs
  {
    forall segs | PlainSegments(segs)
      ensures PathOf(Pointer(segs)) == segs
    {
      PathOfJoin(segs);
    }
  }

  /** The references the body uses, `#/<collection>/<index>`: look the
      collection up by name, then index it. */
  lemma CollectionItem(doc: Json, name: string, index: nat)
    requires !IsDigits(name) && '/' !in name && '#' !in name
    ensures ResolveReference(JStr("#/" + name + "/" + Decimal(index)), doc)
         == (match GetItem(doc, KName(name))
             case Ok(items) => GetItem(items, KIndex(index))
             case Err(e) => Err(e))
  {
    var digits := Decimal(index);
    assert IsDigits(digits) && DigitsValue(digits) == index by {
      DecimalReadsBack(index);
    }
    assert '/' !in digits && '#' !in digits by {
      forall i | 0 <= i < |digits| ensures digits[i] != '/' && digits[i] != '#' {
        assert IsDigit(digits[i]);
      }
    }
    TwoSegments(doc, name, digits);
  }

  /** `#/<first>/<second>` takes two steps: `first` from the root, then
      `second` from there. */
  lemma TwoSegments(doc: Json, first: string, second: string)
    requires '/' !in first && '#' !in first && '/' !in second && '#' !in second
    ensures ResolveReference(JStr("#/" + first + "/" + second), doc)
         == (match GetItem(doc, SegmentKey(first))
             case Ok(x) => GetItem(x, SegmentKey(second))
             case Err(e) => Err(e))
  {
    var segs := [first, second];
    assert "#/" + first + "/" + second == Pointer(segs) by {
      assert segs[1..] == [second];
      assert Join(segs, "/") == first + "/" + second;
    }
    assert PlainSegments(segs);
    assert ResolveReference(JStr(Pointer(segs)), doc) == Walk(doc, segs);
    assert segs[0] == first && segs[1..] == [second];
    assert Step(doc, first) == GetItem(doc, SegmentKey(first));
    match GetItem(doc, SegmentKey(first))
    case Err(e) =>
      assert Walk(doc, segs) == Err(e);
    case Ok(x) =>
      assert Walk(doc, segs) == Walk(x, [second]);
      assert Step(x, second) == GetItem(x, SegmentKey(second));
      var last: seq<string> := [second];
      assert last[1..] == [];
      match GetItem(x, SegmentKey(second))
      case Ok(y) =>
        assert Walk(x, last) == Walk(y, []) == Ok(y);
      case Err(e) =>
        assert Walk(x, last) == Err(e);
  }

  /** A name segment cannot index a list: `#/<collection>/<name>` into a
      collection that is a list raises TypeError. */
  lemma NameIntoList(doc: Json, name: string, seg: string, items: seq<Json>)
    requires !IsDigits(name) && '/' !in name && '#' !in name
    requires !IsDigits(seg) && '/' !in seg && '#' !in seg
    requires doc.JObj? && Member(doc, name) == Some(JArr(items))
    ensures ResolveReference(JStr("#/" + name + "/" + seg), doc) == Err(TypeError)
  {
    TwoSegments(doc, name, seg);
    assert HasKey(doc.fields, name);
  }

}

=== FILE: render.dfy ===
/** `json_to_html`: the document body's children are visited in order;
    each child that points into `texts`, `tables` or `pictures` is
    resolved and rendered by the matching item renderer, and the non-empty
    fragments are joined with newlines. */
module Renderer {
  import opened Strings
  import opened Json
  import opened Reference
  import opened TextItem
  import opened TableItem
  import opened PictureItem

  /** The item renderer a reference selects, by its prefix. */
  datatype Kind = TextKind | TableKind | PictureKind | NoKind

  const TextsPrefix: string := "#/texts/"
  const TablesPrefix: string := "#/tables/"
  const PicturesPrefix: string := "#/pictures/"

  /** `ref.startswith(...)`, tried in the order code.py tries them. */
  function KindOf(ref: string): (k: Kind)
    ensures k == TextKind <==> TextsPrefix <= ref
    ensures k == TableKind <==> !(TextsPrefix <= ref) && TablesPrefix <= ref
    ensures k == PictureKind <==> !(TextsPrefix <= ref) && !(TablesPrefix <= ref) && PicturesPrefix <= ref
  {
    if TextsPrefix <= ref then TextKind
    else if TablesPrefix <= ref then TableKind
    else if PicturesPrefix <= ref then PictureKind
    else NoKind
  }

  /** `r` appends the fragment `x` renders, or fails with `x`'s error. */
  predicate Appends(r: Result<Option<string>>, x: Result<string>) {
    match x
    case Ok(html) => r == Ok(Some(html))
    case Err(e) => r == Err(e)
  }

  /** The fragment the selected renderer makes of the resolved item;
      `None` when the reference names no renderer and nothing is appended. */
  function Render(kind: Kind, item: Json): (r: Result<Option<string>>)
    ensures r.Err? ==> r.error in {AttributeError, TypeError, ReprNotModelled}
    ensures kind == NoKind ==> r == Ok(None)
    ensures kind != NoKind && r.Ok? ==> r.value.Some?
    ensures kind == TextKind ==> Appends(r, ProcessTextItem(item))
    ensures kind == TableKind ==> Appends(r, ProcessTableItem(item))
    ensures kind == PictureKind ==> Appends(r, ProcessPictureItem(item))
  {
    match kind
    case TextKind => var html :- ProcessTextItem(item); Ok(Some(html))
    case TableKind => var html :- ProcessTableItem(item); Ok(Some(html))
    case PictureKind => var html :- ProcessPictureItem(item); Ok(Some(html))
    case NoKind => Ok(None)
  }

  /** The body of the `try`: resolve, then dispatch on the prefix. */
  function Attempt(doc: Json, ref: Json): (r: Result<Option<string>>)
    ensures !ref.JStr? ==> r == Err(AttributeError)
    ensures ResolveReference(ref, doc).Err? ==> r == Err(ResolveReference(ref, doc).error)
    ensures r.Err? && r.error in {KeyError, IndexError} ==> ResolveReference(ref, doc) == Err(r.error)
  {
    var item :- ResolveReference(ref, doc);
    Render(KindOf(ref.s), item)
  }

  /** `except (KeyError, IndexError)`: those two are dropped with the
      child, any other error escapes. */
  function Catch(r: Result<Option<string>>): (c: Result<Option<string>>)
    ensures c.Err? <==> r.Err? && r.error != KeyError && r.error != IndexError
    ensures r.Ok? ==> c == r
    ensures c.Err? ==> c == r
    ensures r == Err(KeyError) || r == Err(IndexError) ==> c == Ok(None)
  {
    if r == Err(KeyError) || r == Err(IndexError) then Ok(None) else r
  }

  /** What one body child appends: nothing without `$ref`, otherwise the
      caught outcome of resolving and rendering it. `$ref` itself is read
      outside the `try`. */
  function Fragment(doc: Json, child: Json): (r: Result<Option<string>>)
    ensures r.Err? ==> r.error in {AttributeError, TypeError, ReprNotModelled}
    ensures child.JObj? && !HasKey(child.fields, "$ref") ==> r == Ok(None)
  {
    var hasRef :- Contains(child, "$ref");
    if !hasRef then Ok(None)
    else
      var ref :- GetItem(child, KName("$ref"));
      Catch(Attempt(doc, ref))
  }

  /** The parts appended for the children, in order; the first error
      aborts the whole render. */
  function Fragments(doc: Json, children: seq<Json>): (r: Result<seq<string>>)
    ensures r.Err? ==> r.error in {AttributeError, TypeError, ReprNotModelled}
    ensures r.Ok? ==> |r.value| <= |children|
    decreases |children|
  {
    if children == [] then Ok([])
    else
      var first :- Fragment(doc, children[0]);
      var rest :- Fragments(doc, children[1..]);
      match first
      case Some(html) => Ok([html] + rest)
      case None => Ok(rest)
  }

  /** `filter(None, parts)`: the empty strings dropped, order kept. */
  function NonEmpty(parts: seq<string>): (r: seq<string>)
    ensures forall i :: 0 <= i < |r| ==> r[i] != []
    ensures forall p :: p in r <==> p in parts && p != []
    ensures multiset(r) == multiset(parts)[[] := 0]
    decreases |parts|
  {
    if parts == [] then []
    else
      assert parts == [parts[0]] + parts[1..];
      if parts[0] == [] then NonEmpty(parts[1..])
      else [parts[0]] + NonEmpty(parts[1..])
  }

  /** The children list of a document, if the body names one. A `body`
      or document that is a list or str can pass the `in` test and then
      fail the lookup. */
  function ChildrenOf(doc: Json): (r: Result<Option<Json>>)
    ensures r.Err? ==> r.error == TypeError
    ensures !(doc.JObj? || doc.JArr? || doc.JStr?) ==> r == Err(TypeError)
    ensures doc.JObj? && Member(doc, "body").None? ==> r == Ok(None)
    ensures doc.JObj? && Member(doc, "body").Some? && Member(doc, "body").value.JObj? ==>
              r == Ok(Member(Member(doc, "body").value, "children"))
    ensures r.Ok? && r.value.Some? ==>
              Member(doc, "body").Some? && Member(Member(doc, "body").value, "children") == r.value
  {
    var hasBody :- Contains(doc, "body");
    if !hasBody then Ok(None)
    else
      var body :- GetItem(doc, KName("body"));
      var hasChildren :- Contains(body, "children");
      if !hasChildren then Ok(None)
      else
        var children :- GetItem(body, KName("children"));
        Ok(Some(children))
  }

  /** `json_to_html(json_content)`. `len(children)` is taken before the
      loop, so a children value without a length fails as iteration would. */
  function JsonToHtml(doc: Json): (r: Result<string>)
    ensures r.Err? ==> r.error in {AttributeError, TypeError, ReprNotModelled}
    ensures doc.JObj? && !HasKey(doc.fields, "body") ==> r == Ok([])
    ensures (doc.JObj? && Member(doc, "body").Some? && Member(doc, "body").value.JObj?
             && !HasKey(Member(doc, "body").value.fields, "children")) ==> r == Ok([])
  {
    var children :- ChildrenOf(doc);
    match children
    case None => Ok([])
    case Some(list) =>
      var items :- Iterate(list);
      var parts :- Fragments(doc, items);
      Ok(Join(NonEmpty(parts), "\n"))
  }

  // ---------------------------------------------------------------------
  // The loop as written, checked against the functional definition.

  /** The `for child in children` loop: `html_parts` grows by one part
      per child that appends, and an escaping error ends the loop. */
  method CollectParts(doc: Json, children: seq<Json>) returns (r: Result<seq<string>>)
    ensures r == Fragments(doc, children)
  {
    var htmlParts: seq<string> := [];
    var i := 0;
    while i < |children|
      invariant 0 <= i <= |children|
      invariant Fragments(doc, children[..i]) == Ok(htmlParts)
      decreases |children| - i
    {
      var part := Fragment(doc, children[i]);
      FragmentsStep(doc, children, i, htmlParts);
      if part.Err? {
        return Err(part.error);
      }
      if part.value.Some? {
        htmlParts := htmlParts + [part.value.value];
      }
      i := i + 1;
    }
    assert children[..i] == children;
    r := Ok(htmlParts);
  }

  /** One more child: its error ends the whole render, and otherwise
      its fragment, if any, follows the parts so far. */
  lemma FragmentsStep(doc: Json, children: seq<Json>, i: nat, parts: seq<string>)
    requires i < |children| && Fragments(doc, children[..i]) == Ok(parts)
    ensures Fragment(doc, children[i]).Err? ==> Fragments(doc, children) == Err(Fragment(doc, children[i]).error)
    ensures Fragment(doc, children[i]) == Ok(None) ==> Fragments(doc, children[..i + 1]) == Ok(parts)
    ensures Fragment(doc, children[i]).Ok? && Fragment(doc, children[i]).value.Some? ==>
              Fragments(doc, children[..i + 1]) == Ok(parts + [Fragment(doc, children[i]).value.value])
  {
    FragmentsAppend(doc, children[..i], [children[i]]);
    FragmentsSingle(doc, children[i]);
    assert children[..i + 1] == children[..i] + [children[i]];
    if Fragment(doc, children[i]).Err? {
      FragmentsAppend(doc, children[..i + 1], children[i + 1..]);
      assert children[..i + 1] + children[i + 1..] == children;
    } else if Fragment(doc, children[i]).value.None? {
      assert parts + [] == parts;
    }
  }

  /** `json_to_html` as written: the guards, the loop, the filtered join. */
  method RenderBody(doc: Json) returns (r: Result<string>)
    ensures r == JsonToHtml(doc)
  {
    var found := ChildrenOf(doc);
    if found.Err? {
      return Err(found.error);
    }
    if found.value.None? {
      return Ok([]);
    }
    var listed := Iterate(found.value.value);
    if listed.Err? {
      return Err(listed.error);
    }
    var parts := CollectParts(doc, listed.value);
    if parts.Err? {
      return Err(parts.error);
    }
    r := Ok(Join(NonEmpty(parts.value), "\n"));
  }

  // ---------------------------------------------------------------------
  // Properties of the body walk.

  /** Appending children appends their parts: order is kept and the
      first failing child's error is the render's error. */
  lemma {:induction false} FragmentsAppend(doc: Json, a: seq<Json>, b: seq<Json>)
    ensures Fragments(doc, a + b)
         == (match Fragments(doc, a)
             case Err(e) => Err(e)
             case Ok(pa) =>
               (match Fragments(doc, b)
                case Err(e) => Err(e)
                case Ok(pb) => Ok(pa + pb)))
    decreases |a|
  {
    if a == [] {
      assert a + b == b;
      if Fragments(doc, b).Ok? {
        assert [] + Fragments(doc, b).value == Fragments(doc, b).value;
      }
    } else {
      assert (a + b)[0] == a[0] && (a + b)[1..] == a[1..] + b;
      FragmentsAppend(doc, a[1..], b);
      match Fragment(doc, a[0])
      case Err(e) =>
      case Ok(first) =>
        match first
        case None =>
        case Some(html) =>
          match Fragments(doc, a[1..])
          case Err(e) =>
          case Ok(pa) =>
            match Fragments(doc, b)
            case Err(e) =>
            case Ok(pb) =>
              assert [html] + (pa + pb) == ([html] + pa) + pb;
    }
  }

  lemma FragmentsSingle(doc: Json, child: Json)
    ensures Fragments(doc, [child])
         == (match Fragment(doc, child)
             case Err(e) => Err(e)
             case Ok(None) => Ok([])
             case Ok(Some(html)) => Ok([html]))
  {
    assert [child][1..] == [];
    assert Fragments(doc, []) == Ok([]);
    match Fragment(doc, child)
    case Err(e) =>
    case Ok(None) =>
    case Ok(Some(html)) =>
      assert [html] + [] == [html];
  }

  lemma {:induction false} NonEmptyAppend(a: seq<string>, b: seq<string>)
    ensures NonEmpty(a + b) == NonEmpty(a) + NonEmpty(b)
    decreases |a|
  {
    if a == [] {
      assert a + b == b;
    } else {
      assert (a + b)[0] == a[0] && (a + b)[1..] == a[1..] + b;
      NonEmptyAppend(a[1..], b);
    }
  }

  /** A reference that cannot be followed, for a missing key or an index
      past the end, drops its child without failing the render. */
  lemma UnresolvedSkipped(doc: Json, child: Json, ref: string)
    requires child.JObj? && Member(child, "$ref") == Some(JStr(ref))
    requires ResolveReference(JStr(ref), doc) in {Err(KeyError), Err(IndexError)}
    ensures Fragment(doc, child) == Ok(None)
  {
    assert HasKey(child.fields, "$ref");
  }

  /** A walk that fails escapes the `try` unless it failed with KeyError
      or IndexError: any other error, TypeError above all, ends the
      render. */
  lemma WalkErrorEscapes(doc: Json, child: Json, ref: string, e: PyError)
    requires child.JObj? && Member(child, "$ref") == Some(JStr(ref))
    requires ResolveReference(JStr(ref), doc) == Err(e)
    ensures Fragment(doc, child) == (if e == KeyError || e == IndexError then Ok(None) else Err(e))
  {
    assert HasKey(child.fields, "$ref");
  }

  /** A name segment applied to a collection that is a list, such as
      `#/texts/x`, raises TypeError, which ends the render. */
  lemma NameIntoListAborts(doc: Json, child: Json, name: string, seg: string, items: seq<Json>)
    requires !IsDigits(name) && '/' !in name && '#' !in name
    requires !IsDigits(seg) && '/' !in seg && '#' !in seg
    requires doc.JObj? && Member(doc, name) == Some(JArr(items))
    requires child.JObj? && Member(child, "$ref") == Some(JStr("#/" + name + "/" + seg))
    ensures Fragment(doc, child) == Err(TypeError)
  {
    NameIntoList(doc, name, seg, items);
    WalkErrorEscapes(doc, child, "#/" + name + "/" + seg, TypeError);
  }

  /** A reference into a collection past its end, such as `#/texts/99`
      in a document with two texts, is skipped. */
  lemma DanglingIndexSkipped(doc: Json, child: Json, name: string, index: nat, items: seq<Json>)
    requires !IsDigits(name) && '/' !in name && '#' !in name
    requires doc.JObj? && Member(doc, name) == Some(JArr(items)) && index >= |items|
    requires child.JObj? && Member(child, "$ref") == Some(JStr("#/" + name + "/" + Decimal(index)))
    ensures Fragment(doc, child) == Ok(None)
  {
    CollectionItem(doc, name, index);
    assert HasKey(doc.fields, name);
    UnresolvedSkipped(doc, child, "#/" + name + "/" + Decimal(index));
  }

  /** A reference into `texts` that resolves appends what the text
      renderer makes of the item it names; likewise for tables and
      pictures. The renderers raise neither KeyError nor IndexError, so
      nothing they do is swallowed. */
  lemma Dispatches(doc: Json, child: Json, ref: string, item: Json)
    requires child.JObj? && Member(child, "$ref") == Some(JStr(ref))
    requires ResolveReference(JStr(ref), doc) == Ok(item)
    ensures TextsPrefix <= ref ==> Appends(Fragment(doc, child), ProcessTextItem(item))
    ensures !(TextsPrefix <= ref) && TablesPrefix <= ref ==> Appends(Fragment(doc, child), ProcessTableItem(item))
    ensures !(TextsPrefix <= ref) && !(TablesPrefix <= ref) && PicturesPrefix <= ref ==>
              Appends(Fragment(doc, child), ProcessPictureItem(item))
    ensures KindOf(ref) == NoKind ==> Fragment(doc, child) == Ok(None)
  {
    assert HasKey(child.fields, "$ref");
    var rendered := Render(KindOf(ref), item);
    assert Attempt(doc, JStr(ref)) == rendered;
    assert Fragment(doc, child) == Catch(rendered);
    assert rendered.Err? ==> rendered.error != KeyError && rendered.error != IndexError;
  }

  /** A reference that is not a string has no `replace`; the
      AttributeError is not caught and ends the render. */
  lemma NonStringRefAborts(doc: Json, child: Json)
    requires child.JObj? && Member(child, "$ref").Some? && !Member(child, "$ref").value.JStr?
    ensures Fragment(doc, child) == Err(AttributeError)
  {
    assert HasKey(child.fields, "$ref");
  }
}

=== FILE: seqs.dfy ===
/** Generic operations on sequences that the renderers share. */
module Seqs {
  /** `f` applied to each element, in order. */
  function Map<T, U>(f: T -> U, s: seq<T>): (r: seq<U>)
    ensures |r| == |s|
    decreases |s|
  {
    if s == [] then [] else [f(s[0])] + Map(f, s[1..])
  }

  /** Element `j` of the mapped sequence is `f` of element `j`. */
  lemma {:induction false} MapAt<T, U>(f: T -> U, s: seq<T>, j: nat)
    requires j < |s|
    ensures Map(f, s)[j] == f(s[j])
    decreases j
  {
    if j > 0 {
      MapAt(f, s[1..], j - 1);
    }
  }
}

=== FILE: strings.dfy ===
/** String operations of Python's `str` type that the renderer relies on:
    `strip()`, `isdigit()`, `int()` of a digit string, `str()` of an int,
    `split(sep)`, `sep.join(parts)`, `replace(old, new)` and the `in`
    substring test. Strings are sequences of Unicode scalar values; Python's
    are sequences of code points, which also admit lone surrogates. */
module Strings {

  /** Whitespace as `str.strip()` treats it in the ASCII range:
      space, \t \n \v \f \r and the separators \x1c-\x1f. */
  predicate IsSpace(c: char) {
    c == ' ' || ('\t' <= c <= '\r') || ('\U{1c}' <= c <= '\U{1f}')
  }

  predicate AllSpace(s: string) {
    forall i :: 0 <= i < |s| ==> IsSpace(s[i])
  }

  /** `s.lstrip()`: the longest suffix of `s` that does not start with whitespace. */
  function TrimStart(s: string): (r: string)
    ensures |r| <= |s| && r == s[|s| - |r|..]
    ensures AllSpace(s[..|s| - |r|])
    ensures r != [] ==> !IsSpace(r[0])
    decreases |s|
  {
    if s != [] && IsSpace(s[0]) then
      var r := TrimStart(s[1..]);
      assert s[..|s| - |r|] == [s[0]] + s[1..][..|s| - 1 - |r|];
      r
    else s
  }

  /** `s.rstrip()`: the longest prefix of `s` that does not end with whitespace. */
  function TrimEnd(s: string): (r: string)
    ensures |r| <= |s| && r == s[..|r|]
    ensures AllSpace(s[|r|..])
    ensures r != [] ==> !IsSpace(r[|r| - 1])
    decreases |s|
  {
    if s != [] && IsSpace(s[|s| - 1]) then
      var r := TrimEnd(s[..|s| - 1]);
      assert s[|r|..] == s[..|s| - 1][|r|..] + [s[|s| - 1]];
      r
    else s
  }

  /** `r` is a slice of `s` with only whitespace before and after it. */
  predicate TrimmedFrom(r: string, s: string) {
    exists k :: 0 <= k <= |s| - |r| && r == s[k..k + |r|] && AllSpace(s[..k]) && AllSpace(s[k + |r|..])
  }

  /** `s.strip()`: what is left of `s` once the whitespace is cut from
      both ends. */
  function Strip(s: string): (r: string)
    ensures |r| <= |s|
    ensures TrimmedFrom(r, s)
    ensures r == [] <==> AllSpace(s)
    ensures r != [] ==> !IsSpace(r[0]) && !IsSpace(r[|r| - 1])
  {
    TrimBoth(s);
    TrimEnd(TrimStart(s))
  }

  /** Cutting the leading and then the trailing whitespace leaves a slice
      of `s` between whitespace margins, empty only for a blank `s`. */
  lemma TrimBoth(s: string)
    ensures var r := TrimEnd(TrimStart(s));
            |r| <= |s| && TrimmedFrom(r, s) && (r == [] <==> AllSpace(s)) &&
            (r != [] ==> !IsSpace(r[0]) && !IsSpace(r[|r| - 1]))
  {
    var t := TrimStart(s);
    TrimmedSlices(s, |s| - |t|, t, TrimEnd(t));
  }

  /** Whitespace cut from the front of `s` (leaving `t`), then from the
      back of `t` (leaving `r`), leaves `r` between whitespace margins. */
  lemma TrimmedSlices(s: string, k: nat, t: string, r: string)
    requires k <= |s| && t == s[k..] && AllSpace(s[..k]) && (t != [] ==> !IsSpace(t[0]))
    requires |r| <= |t| && r == t[..|r|] && AllSpace(t[|r|..]) && (r != [] ==> !IsSpace(r[|r| - 1]))
    ensures |r| <= |s| && TrimmedFrom(r, s) && (r == [] <==> AllSpace(s))
    ensures r != [] ==> !IsSpace(r[0]) && !IsSpace(r[|r| - 1])
  {
    assert r == s[k..k + |r|] && s[k + |r|..] == t[|r|..];
    if r == [] {
      assert s == s[..k] + t;
    } else {
      assert r[0] == t[0];
    }
  }

  lemma {:induction false} TrimStartPadded(pre: string, rest: string)
    requires AllSpace(pre)
    requires rest == [] || !IsSpace(rest[0])
    ensures TrimStart(pre + rest) == rest
    decreases |pre|
  {
    if pre == [] {
      assert pre + rest == rest;
    } else {
      assert (pre + rest)[1..] == pre[1..] + rest;
      TrimStartPadded(pre[1..], rest);
    }
  }

  lemma {:induction false} TrimEndPadded(core: string, post: string)
    requires AllSpace(post)
    requires core == [] || !IsSpace(core[|core| - 1])
    ensures TrimEnd(core + post) == core
    decreases |post|
  {
    if post == [] {
      assert core + post == core;
    } else {
      var n := |core + post|;
      assert (core + post)[..n - 1] == core + post[..|post| - 1];
      TrimEndPadded(core, post[..|post| - 1]);
    }
  }

  /** Stripping undoes padding: whitespace added around a string that
      neither starts nor ends with whitespace is removed exactly. */
  lemma StripPadded(pre: string, core: string, post: string)
    requires AllSpace(pre) && AllSpace(post)
    requires core != [] ==> !IsSpace(core[0]) && !IsSpace(core[|core| - 1])
    ensures Strip(pre + core + post) == core
  {
    if core == [] {
      assert AllSpace(pre + core + post);
    } else {
      assert pre + core + post == pre + (core + post);
      TrimStartPadded(pre, core + post);
      TrimEndPadded(core, post);
    }
  }

  predicate IsDigit(c: char) {
    '0' <= c <= '9'
  }

  /** `s.isdigit()` over ASCII digits: true only for a NON-empty run of digits. */
  predicate IsDigits(s: string) {
    |s| > 0 && forall i :: 0 <= i < |s| ==> IsDigit(s[i])
  }

  /** `int(s)` for a string of decimal digits (leading zeros allowed). */
  function DigitsValue(s: string): nat
    requires forall i :: 0 <= i < |s| ==> IsDigit(s[i])
    decreases |s|
  {
    if s == [] then 0
    else
      var last := s[|s| - 1];
      assert IsDigit(last);
      DigitsValue(s[..|s| - 1]) * 10 + (last as int - '0' as int)
  }

  function DigitChar(d: nat): (c: char)
    requires d < 10
    ensures IsDigit(c) && c as int - '0' as int == d
  {
    ('0' as int + d) as char
  }

  /** `str(n)` for a natural number: decimal digits, most significant first. */
  function Decimal(n: nat): (r: string)
    ensures IsDigits(r)
    decreases n
  {
    if n < 10 then [DigitChar(n)] else Decimal(n / 10) + [DigitChar(n % 10)]
  }

  /** `int()` reads `str(n)` back as `n`, and `str(n)` is canonical: no
      leading zero unless it is the single digit 0. */
  lemma {:induction false} DecimalReadsBack(n: nat)
    ensures DigitsValue(Decimal(n)) == n
    ensures |Decimal(n)| > 1 ==> Decimal(n)[0] != '0'
    decreases n
  {
    if n >= 10 {
      DecimalReadsBack(n / 10);
      var r := Decimal(n);
      assert r[..|r| - 1] == Decimal(n / 10);
    }
  }

  /** `str(i)` for any Python int. */
  function IntToString(i: int): string {
    if i < 0 then "-" + Decimal(-i) else Decimal(i)
  }

  /** `sep.join(parts)`. */
  function Join(parts: seq<string>, sep: string): string
    decreases |parts|
  {
    if |parts| == 0 then []
    else if |parts| == 1 then parts[0]
    else parts[0] + sep + Join(parts[1..], sep)
  }

  /** `s.split(sep)` for a one-character separator: the pieces between
      separators, one more piece than there are separators. */
  function Split(s: string, sep: char): (parts: seq<string>)
    ensures |parts| >= 1
    ensures forall i :: 0 <= i < |parts| ==> sep !in parts[i]
    ensures Join(parts, [sep]) == s
    decreases |s|
  {
    if s == [] then [[]]
    else
      var rest := Split(s[1..], sep);
      if s[0] == sep then
        assert s == [sep] + s[1..];
        [[]] + rest
      else
        var parts := [[s[0]] + rest[0]] + rest[1..];
        assert parts[1..] == rest[1..];
        assert s == [s[0]] + s[1..];
        parts
  }

  lemma {:induction false} SplitNoSeparator(p: string, sep: char)
    requires sep !in p
    ensures Split(p, sep) == [p]
    decreases |p|
  {
    if p != [] {
      SplitNoSeparator(p[1..], sep);
      assert [p[0]] + p[1..] == p;
    }
  }

  lemma {:induction false} SplitAfterPiece(p: string, t: string, sep: char)
    requires sep !in p
    ensures Split(p + [sep] + t, sep) == [p] + Split(t, sep)
    decreases |p|
  {
    var s := p + [sep] + t;
    if p == [] {
      assert s[1..] == t;
    } else {
      assert s[1..] == p[1..] + [sep] + t;
      SplitAfterPiece(p[1..], t, sep);
      assert [p[0]] + p[1..] == p;
    }
  }

  /** Splitting a join recovers the pieces when none contains the separator. */
  lemma {:induction false} SplitJoin(parts: seq<string>, sep: char)
    requires |parts| >= 1
    requires forall i :: 0 <= i < |parts| ==> sep !in parts[i]
    ensures Split(Join(parts, [sep]), sep) == parts
    decreases |parts|
  {
    if |parts| == 1 {
      SplitNoSeparator(parts[0], sep);
    } else {
      SplitJoin(parts[1..], sep);
      SplitAfterPiece(parts[0], Join(parts[1..], [sep]), sep);
      assert [parts[0]] + parts[1..] == parts;
    }
  }

  /** Python's `needle in hay` for strings. */
  predicate IsSubstring(needle: string, hay: string)
    decreases |hay|
  {
    needle <= hay || (hay != [] && IsSubstring(needle, hay[1..]))
  }

  /** `needle` sits in `hay` starting at position `k`. */
  predicate OccursAt(needle: string, hay: string, k: int) {
    0 <= k <= |hay| - |needle| && hay[k..k + |needle|] == needle
  }

  /** `needle in hay` holds exactly when `needle` occurs at some position. */
  lemma {:induction false} SubstringOccurs(needle: string, hay: string)
    ensures IsSubstring(needle, hay) <==> exists k :: OccursAt(needle, hay, k)
    decreases |hay|
  {
    if needle <= hay {
      assert OccursAt(needle, hay, 0);
    } else if hay != [] {
      SubstringOccurs(needle, hay[1..]);
      forall k | OccursAt(needle, hay[1..], k) ensures OccursAt(needle, hay, k + 1) {
        assert hay[1..][k..k + |needle|] == hay[k + 1..k + 1 + |needle|];
      }
      forall k | OccursAt(needle, hay, k) ensures k >= 1 && OccursAt(needle, hay[1..], k - 1) {
        assert hay[1..][k - 1..k - 1 + |needle|] == hay[k..k + |needle|];
      }
    }
  }

  /** `s.replace(pat, rep)`: every leftmost non-overlapping occurrence of
      `pat`, scanning left to right, is replaced by `rep`. */
  function Replace(s: string, pat: string, rep: string): string
    requires pat != []
    decreases |s|
  {
    if s == [] then []
    else if pat <= s then rep + Replace(s[|pat|..], pat, rep)
    else [s[0]] + Replace(s[1..], pat, rep)
  }

  /** A pattern whose first character does not occur is not a substring. */
  lemma {:induction false} NotSubstringWithoutHead(pat: string, s: string)
    requires pat != [] && pat[0] !in s
    ensures !IsSubstring(pat, s)
    decreases |s|
  {
    if s != [] {
      assert s[0] in s;
      assert forall c :: c in s[1..] ==> c in s;
      NotSubstringWithoutHead(pat, s[1..]);
    }
  }

  /** Text in which the pattern does not occur comes back unchanged. */
  lemma {:induction false} ReplaceWithoutPattern(s: string, pat: string, rep: string)
    requires pat != [] && !IsSubstring(pat, s)
    ensures Replace(s, pat, rep) == s
    decreases |s|
  {
    if s != [] {
      ReplaceWithoutPattern(s[1..], pat, rep);
      assert [s[0]] + s[1..] == s;
    }
  }

  /** Replacing a single character distributes over concatenation, so it
      acts character by character. */
  lemma {:induction false} ReplaceCharAppend(a: string, b: string, c: char, rep: string)
    ensures Replace(a + b, [c], rep) == Replace(a, [c], rep) + Replace(b, [c], rep)
    decreases |a|
  {
    var ab := a + b;
    if a == [] {
      assert ab == b;
    } else {
      assert ab[1..] == a[1..] + b;
      assert ab[0] == a[0];
      ReplaceCharAppend(a[1..], b, c, rep);
      if a[0] == c {
        assert [c] <= ab && [c] <= a;
        assert Replace(ab, [c], rep) == rep + Replace(ab[1..], [c], rep);
        assert Replace(a, [c], rep) == rep + Replace(a[1..], [c], rep);
      } else {
        assert !([c] <= ab) && !([c] <= a);
        assert Replace(ab, [c], rep) == [a[0]] + Replace(ab[1..], [c], rep);
        assert Replace(a, [c], rep) == [a[0]] + Replace(a[1..], [c], rep);
      }
    }
  }

  /** The longest prefix of `s` without `stop`. */
  function TakeUntil(s: string, stop: char): (r: string)
    ensures |r| <= |s| && r == s[..|r|] && stop !in r
    ensures |r| < |s| ==> s[|r|] == stop
    decreases |s|
  {
    if s == [] || s[0] == stop then [] else [s[0]] + TakeUntil(s[1..], stop)
  }

  lemma {:induction false} TakeUntilStops(x: string, stop: char, rest: string)
    requires stop !in x
    ensures TakeUntil(x + [stop] + rest, stop) == x
    decreases |x|
  {
    var s := x + [stop] + rest;
    if x == [] {
      assert s[0] == stop;
    } else {
      assert s[0] == x[0] && s[1..] == x[1..] + [stop] + rest;
      TakeUntilStops(x[1..], stop, rest);
      assert [x[0]] + x[1..] == x;
    }
  }
}

=== FILE: table.dfy ===
/** `process_table_item`: a table item's grid becomes a line-oriented
    `<table>`, one line per row boundary and one per cell. */
module TableItem {
  import opened Strings
  import opened Json
  import opened Escape
  import opened Seqs

  /** What the renderer reads from a grid cell: its stripped text, whether
      either header flag is truthy, and its two spans. */
  datatype Cell = Cell(text: string, header: bool, rowSpan: int, colSpan: int)

  /** ` name="n"` when the span exceeds one, nothing otherwise. */
  function SpanAttr(name: string, span: int): string {
    if span > 1 then " " + name + "=\"" + Decimal(span) + "\"" else ""
  }

  /** The rowspan attribute followed by the colspan attribute. */
  function SpanAttrs(rowSpan: int, colSpan: int): string {
    SpanAttr("rowspan", rowSpan) + SpanAttr("colspan", colSpan)
  }

  function CellTag(c: Cell): string {
    if c.header then "th" else "td"
  }

  /** The line of one cell, indented by four spaces. */
  function CellLine(c: Cell): string {
    var tag := CellTag(c);
    "    <" + tag + SpanAttrs(c.rowSpan, c.colSpan) + ">" + EscapeHtml(c.text) + "</" + tag + ">"
  }

  /** The lines of one cell each, in row order. */
  function CellLines(row: seq<Cell>): seq<string> {
    Map(CellLine, row)
  }

  /** Line `j` of a row's lines is the line of cell `j`. */
  lemma CellLinesAt(row: seq<Cell>, j: nat)
    requires j < |row|
    ensures |CellLines(row)| == |row|
    ensures CellLines(row)[j] == CellLine(row[j])
  {
    MapAt(CellLine, row, j);
  }

  /** The cell lines of every row, row by row. */
  function RowsCellLines(rows: seq<seq<Cell>>): seq<seq<string>> {
    Map(CellLines, rows)
  }

  /** Each row has one line per cell, and row `i`'s lines are its cells' lines. */
  lemma RowsCellLinesShape(rows: seq<seq<Cell>>)
    ensures |RowsCellLines(rows)| == |rows|
    ensures forall i :: 0 <= i < |rows| ==> RowsCellLines(rows)[i] == CellLines(rows[i])
    ensures forall i :: 0 <= i < |rows| ==> |RowsCellLines(rows)[i]| == |rows[i]|
  {
    forall i | 0 <= i < |rows|
      ensures RowsCellLines(rows)[i] == CellLines(rows[i])
    {
      MapAt(CellLines, rows, i);
    }
  }

  /** A row's cell lines between its `<tr>` and `</tr>` lines. */
  function RowBlock(cells: seq<string>): seq<string> {
    ["  <tr>"] + cells + ["  </tr>"]
  }

  /** The rows' blocks one after another. */
  function Blocks(rows: seq<seq<string>>): seq<string>
    decreases |rows|
  {
    if rows == [] then [] else RowBlock(rows[0]) + Blocks(rows[1..])
  }

  /** The rows' blocks between `<table>` and `</table>`. */
  function Framed(rendered: seq<seq<string>>): seq<string> {
    ["<table>"] + Blocks(rendered) + ["</table>"]
  }

  /** The lines of the whole table, to be joined with newlines. */
  function TableLines(rows: seq<seq<Cell>>): seq<string> {
    Framed(RowsCellLines(rows))
  }

  /** Where row `i` starts among the rows' blocks: every earlier row took
      its cells plus its two `<tr>` lines. */
  function RowStart<T>(rows: seq<seq<T>>, i: nat): nat
    requires i <= |rows|
    decreases i
  {
    if i == 0 then 0 else |rows[0]| + 2 + RowStart(rows[1..], i - 1)
  }

  /** Rows start at the same places whatever their lines hold. */
  lemma {:induction false} RowStartSameLengths<T, U>(a: seq<seq<T>>, b: seq<seq<U>>, i: nat)
    requires |a| == |b| && i <= |a|
    requires forall k :: 0 <= k < |a| ==> |a[k]| == |b[k]|
    ensures RowStart(a, i) == RowStart(b, i)
    decreases i
  {
    if i > 0 {
      RowStartSameLengths(a[1..], b[1..], i - 1);
    }
  }

  lemma {:induction false} BlocksLength(rows: seq<seq<string>>)
    ensures |Blocks(rows)| == RowStart(rows, |rows|)
    decreases |rows|
  {
    if rows != [] {
      BlocksLength(rows[1..]);
    }
  }

  /** The blocks are those of the rows before `i`, row `i`'s block, and
      those of the rows after it; the first part ends at `RowStart(rows, i)`. */
  lemma {:induction false} BlocksSplit(rows: seq<seq<string>>, i: nat)
    requires i < |rows|
    ensures Blocks(rows) == Blocks(rows[..i]) + RowBlock(rows[i]) + Blocks(rows[i + 1..])
    ensures |Blocks(rows[..i])| == RowStart(rows, i)
    decreases i
  {
    if i == 0 {
      assert rows[..0] == [];
      assert Blocks(rows[..0]) == [];
      assert rows[1..] == rows[i + 1..];
    } else {
      BlocksSplit(rows[1..], i - 1);
      BlocksSplitStep(rows, i);
    }
  }

  /** The step of `BlocksSplit`: the split of the rows after the first
      extends to a split of all the rows. */
  lemma BlocksSplitStep(rows: seq<seq<string>>, i: nat)
    requires 0 < i < |rows|
    requires var tail := rows[1..];
             Blocks(tail) == Blocks(tail[..i - 1]) + RowBlock(tail[i - 1]) + Blocks(tail[i..])
             && |Blocks(tail[..i - 1])| == RowStart(tail, i - 1)
    ensures Blocks(rows) == Blocks(rows[..i]) + RowBlock(rows[i]) + Blocks(rows[i + 1..])
    ensures |Blocks(rows[..i])| == RowStart(rows, i)
  {
    var tail := rows[1..];
    var front := rows[..i];
    var a := RowBlock(rows[0]);
    var b := Blocks(rows[1..i]);
    var c := RowBlock(rows[i]);
    var d := Blocks(rows[i + 1..]);
    assert tail[..i - 1] == rows[1..i];
    assert tail[i - 1] == rows[i];
    assert tail[i..] == rows[i + 1..];
    assert Blocks(front) == a + b by {
      assert front[0] == rows[0] && front[1..] == rows[1..i];
    }
    assert Blocks(rows) == a + Blocks(tail);
    assert a + (b + c + d) == (a + b) + c + d;
  }

  /** Row `i` occupies the lines from `RowStart(rows, i)`: its `<tr>`, its
      cell lines in order, its `</tr>`; the blocks hold nothing else. */
  lemma BlocksLayout(rows: seq<seq<string>>, i: nat)
    requires i < |rows|
    ensures RowStart(rows, i) + |rows[i]| + 2 <= |Blocks(rows)|
    ensures Blocks(rows)[RowStart(rows, i)] == "  <tr>"
    ensures forall j :: 0 <= j < |rows[i]| ==> Blocks(rows)[RowStart(rows, i) + 1 + j] == rows[i][j]
    ensures Blocks(rows)[RowStart(rows, i) + 1 + |rows[i]|] == "  </tr>"
    ensures |Blocks(rows)| == RowStart(rows, |rows|)
  {
    BlocksRow(rows, i);
    BlocksLength(rows);
  }

  /** Row `i`'s `<tr>`, cell lines and `</tr>` from `RowStart(rows, i)` on. */
  lemma BlocksRow(rows: seq<seq<string>>, i: nat)
    requires i < |rows|
    ensures RowStart(rows, i) + |rows[i]| + 2 <= |Blocks(rows)|
    ensures Blocks(rows)[RowStart(rows, i)] == "  <tr>"
    ensures forall j :: 0 <= j < |rows[i]| ==> Blocks(rows)[RowStart(rows, i) + 1 + j] == rows[i][j]
    ensures Blocks(rows)[RowStart(rows, i) + 1 + |rows[i]|] == "  </tr>"
  {
    BlocksAt(rows, i, 0);
    BlocksAt(rows, i, |rows[i]| + 1);
    forall j | 0 <= j < |rows[i]| ensures Blocks(rows)[RowStart(rows, i) + 1 + j] == rows[i][j] {
      BlocksAt(rows, i, j + 1);
    }
  }

  /** Line `k` of row `i`'s block is line `RowStart(rows, i) + k` of the
      blocks: the `<tr>`, a cell line, or the `</tr>`. */
  lemma BlocksAt(rows: seq<seq<string>>, i: nat, k: nat)
    requires i < |rows| && k < |rows[i]| + 2
    ensures RowStart(rows, i) + |rows[i]| + 2 <= |Blocks(rows)|
    ensures Blocks(rows)[RowStart(rows, i) + k] ==
              if k == 0 then "  <tr>" else if k == |rows[i]| + 1 then "  </tr>" else rows[i][k - 1]
  {
    BlocksSplit(rows, i);
    var pre := Blocks(rows[..i]);
    var block := RowBlock(rows[i]);
    var post := Blocks(rows[i + 1..]);
    assert (pre + block + post)[|pre| + k] == block[k];
    RowBlockAt(rows[i], k);
  }

  lemma RowBlockAt(cells: seq<string>, k: nat)
    requires k < |cells| + 2
    ensures RowBlock(cells)[k] == if k == 0 then "  <tr>" else if k == |cells| + 1 then "  </tr>" else cells[k - 1]
  {
  }

  /** Where row `i` of the framed blocks lies. */
  lemma FramedRow(rendered: seq<seq<string>>, i: nat, j: nat)
    requires i < |rendered| && j < |rendered[i]|
    ensures 2 + RowStart(rendered, i) + |rendered[i]| < |Framed(rendered)|
    ensures Framed(rendered)[1 + RowStart(rendered, i)] == "  <tr>"
    ensures Framed(rendered)[2 + RowStart(rendered, i) + j] == rendered[i][j]
    ensures Framed(rendered)[2 + RowStart(rendered, i) + |rendered[i]|] == "  </tr>"
  {
    FramedRowEnds(rendered, i);
    BlocksAt(rendered, i, j + 1);
    FramedAt(rendered, RowStart(rendered, i) + 1 + j);
  }

  /** Inside `<table>`, row `i`'s `<tr>` and `</tr>` lines, even for a row
      without cells. */
  lemma FramedRowEnds(rendered: seq<seq<string>>, i: nat)
    requires i < |rendered|
    ensures 2 + RowStart(rendered, i) + |rendered[i]| < |Framed(rendered)|
    ensures Framed(rendered)[1 + RowStart(rendered, i)] == "  <tr>"
    ensures Framed(rendered)[2 + RowStart(rendered, i) + |rendered[i]|] == "  </tr>"
  {
    var start := RowStart(rendered, i);
    var n := |rendered[i]|;
    BlocksAt(rendered, i, 0);
    BlocksAt(rendered, i, n + 1);
    FramedAt(rendered, start);
    FramedAt(rendered, start + 1 + n);
  }

  /** Block line `k` is line `k + 1` of the framed table. */
  lemma FramedAt(rendered: seq<seq<string>>, k: nat)
    requires k < |Blocks(rendered)|
    ensures |Framed(rendered)| == |Blocks(rendered)| + 2
    ensures Framed(rendered)[k + 1] == Blocks(rendered)[k]
  {
  }

  /** The table is `<table>`, its rows' lines, then `</table>`. */
  lemma TableFrame(rows: seq<seq<Cell>>)
    ensures |TableLines(rows)| == RowStart(rows, |rows|) + 2
    ensures TableLines(rows)[0] == "<table>" && TableLines(rows)[|TableLines(rows)| - 1] == "</table>"
  {
    var rendered := RowsCellLines(rows);
    RowsCellLinesShape(rows);
    RowStartSameLengths(rendered, rows, |rows|);
    BlocksLength(rendered);
  }

  /** Row `i` opens on line `1 + RowStart(rows, i)` and closes one line
      after its last cell. */
  lemma TableRow(rows: seq<seq<Cell>>, i: nat)
    requires i < |rows|
    ensures 2 + RowStart(rows, i) + |rows[i]| < |TableLines(rows)|
    ensures TableLines(rows)[1 + RowStart(rows, i)] == "  <tr>"
    ensures TableLines(rows)[2 + RowStart(rows, i) + |rows[i]|] == "  </tr>"
  {
    var rendered := RowsCellLines(rows);
    assert |rendered| == |rows| && RowStart(rendered, i) == RowStart(rows, i) && |rendered[i]| == |rows[i]| by {
      RowsCellLinesShape(rows);
      RowStartSameLengths(rendered, rows, i);
    }
    assert TableLines(rows) == Framed(rendered);
    FramedRowEnds(rendered, i);
  }

  /** Between them, cell `j` of row `i` is the line of that cell. */
  lemma TableCell(rows: seq<seq<Cell>>, i: nat, j: nat)
    requires i < |rows| && j < |rows[i]|
    ensures 2 + RowStart(rows, i) + j < |TableLines(rows)|
    ensures TableLines(rows)[2 + RowStart(rows, i) + j] == CellLine(rows[i][j])
  {
    var rendered := RowsCellLines(rows);
    assert |rendered| == |rows| && RowStart(rendered, i) == RowStart(rows, i) && |rendered[i]| == |rows[i]| by {
      RowsCellLinesShape(rows);
      RowStartSameLengths(rendered, rows, i);
    }
    var k := 2 + RowStart(rows, i) + j;
    assert k < |TableLines(rows)| && TableLines(rows)[k] == rendered[i][j] by {
      assert TableLines(rows) == Framed(rendered);
      FramedRow(rendered, i, j);
    }
    assert rendered[i][j] == CellLine(rows[i][j]) by {
      RowsCellLinesShape(rows);
      CellLinesAt(rows[i], j);
    }
  }

  // ---------------------------------------------------------------------
  // Reading a cell line back: the inverse the line format admits.

  /** The longest prefix of `s` made of digits. */
  function TakeDigits(s: string): (r: string)
    ensures |r| <= |s| && r == s[..|r|]
    ensures forall i :: 0 <= i < |r| ==> IsDigit(r[i])
    decreases |s|
  {
    if s == [] || !IsDigit(s[0]) then [] else [s[0]] + TakeDigits(s[1..])
  }

  /** Reads ` name="n"` off the front of `s`: the span and what follows,
      or the default span 1 and `s` itself when the attribute is absent. */
  function ReadSpan(s: string, name: string): (string, int) {
    var key := " " + name + "=\"";
    if !(key <= s) then (s, 1)
    else
      var after := s[|key|..];
      var digits := TakeDigits(after);
      if digits != [] && |digits| < |after| && after[|digits|] == '"' then
        (after[|digits| + 1..], DigitsValue(digits))
      else (s, 1)
  }

  /** Reads a cell's attribute text into its row and column spans. */
  function ReadSpans(attrs: string): (int, int) {
    var (rest, rowSpan) := ReadSpan(attrs, "rowspan");
    var (_, colSpan) := ReadSpan(rest, "colspan");
    (rowSpan, colSpan)
  }

  /** Reads a cell line back into the cell it shows: the four-space
      indent and `<`, a two-letter tag, then the rest of the line. */
  function ReadCellLine(line: string): Option<Cell> {
    if !("    <" <= line) || |line| < 7 then None
    else ReadCellTag(line[5..7], line[7..])
  }

  /** The attributes run up to the first `>`. */
  function ReadCellTag(tag: string, afterTag: string): Option<Cell> {
    if tag != "th" && tag != "td" then None
    else
      var attrs := TakeUntil(afterTag, '>');
      if |attrs| == |afterTag| then None
      else ReadCellContent(tag, attrs, afterTag[|attrs| + 1..])
  }

  /** The content runs up to the first `<`, which must start the closing tag. */
  function ReadCellContent(tag: string, attrs: string, afterOpen: string): Option<Cell> {
    var content := TakeUntil(afterOpen, '<');
    if afterOpen[|content|..] != "</" + tag + ">" then None
    else
      var (rowSpan, colSpan) := ReadSpans(attrs);
      Some(Cell(Unescape(content), tag == "th", rowSpan, colSpan))
  }

  /** The span a reader sees: a span attribute is written only above one,
      so one, zero, negative and boolean spans all read back as 1. */
  function Shown(span: int): int {
    if span > 1 then span else 1
  }

  lemma {:induction false} TakeDigitsStops(d: string, rest: string)
    requires forall i :: 0 <= i < |d| ==> IsDigit(d[i])
    requires rest == [] || !IsDigit(rest[0])
    ensures TakeDigits(d + rest) == d
    decreases |d|
  {
    if d == [] {
      assert d + rest == rest;
    } else {
      assert (d + rest)[0] == d[0] && (d + rest)[1..] == d[1..] + rest;
      TakeDigitsStops(d[1..], rest);
      assert [d[0]] + d[1..] == d;
    }
  }

  lemma ReadOneSpan(name: string, n: nat, rest: string)
    requires n > 1
    ensures ReadSpan(" " + name + "=\"" + Decimal(n) + "\"" + rest, name) == (rest, n)
  {
    var key := " " + name + "=\"";
    var d := Decimal(n);
    var s := key + d + "\"" + rest;
    assert key <= s;
    var after := s[|key|..];
    assert after == d + ("\"" + rest);
    TakeDigitsStops(d, "\"" + rest);
    DecimalReadsBack(n);
    assert after[|d|] == '"';
    assert after[|d| + 1..] == rest;
  }

  /** An attribute reads back as the span a reader sees, leaving what
      follows it. */
  lemma ReadSpanAttr(name: string, span: int, rest: string)
    requires !(" " + name + "=\"" <= rest)
    ensures ReadSpan(SpanAttr(name, span) + rest, name) == (rest, Shown(span))
  {
    if span > 1 {
      ReadOneSpan(name, span, rest);
    } else {
      assert SpanAttr(name, span) + rest == rest;
    }
  }

  lemma ReadSpansOfSpanAttrs(rowSpan: int, colSpan: int)
    ensures ReadSpans(SpanAttrs(rowSpan, colSpan)) == (Shown(rowSpan), Shown(colSpan))
  {
    var colAttr := SpanAttr("colspan", colSpan);
    assert colAttr != [] ==> colAttr[1] == 'c';
    assert !(" rowspan=\"" <= colAttr);
    ReadSpanAttr("rowspan", rowSpan, colAttr);
    ReadSpanAttr("colspan", colSpan, []);
    assert colAttr + [] == colAttr;
  }

  lemma NoCloseInSpanAttrs(rowSpan: int, colSpan: int)
    ensures '>' !in SpanAttrs(rowSpan, colSpan)
  {
    NoCloseInSpanAttr("rowspan", rowSpan);
    NoCloseInSpanAttr("colspan", colSpan);
  }

  lemma NoCloseInSpanAttr(name: string, span: int)
    requires '>' !in name
    ensures '>' !in SpanAttr(name, span)
  {
    if span > 1 {
      var d := Decimal(span);
      assert forall i :: 0 <= i < |d| ==> IsDigit(d[i]);
    }
  }

  /** Any line of the cell-line shape reads back field by field. */
  lemma ReadCellLineOf(tag: string, attrs: string, e: string)
    requires tag == "th" || tag == "td"
    requires '>' !in attrs && '<' !in e
    ensures ReadCellLine("    <" + tag + attrs + ">" + e + "</" + tag + ">")
         == Some(Cell(Unescape(e), tag == "th", ReadSpans(attrs).0, ReadSpans(attrs).1))
  {
    var close := "</" + tag + ">";
    var afterTag := attrs + ['>'] + (e + close);
    var line := "    <" + tag + attrs + ">" + e + "</" + tag + ">";
    assert line == "    <" + tag + afterTag;
    assert "    <" <= line && |line| >= 7 && line[5..7] == tag && line[7..] == afterTag;
    ReadCellTagOf(tag, attrs, e);
  }

  lemma ReadCellTagOf(tag: string, attrs: string, e: string)
    requires tag == "th" || tag == "td"
    requires '>' !in attrs && '<' !in e
    ensures ReadCellTag(tag, attrs + ['>'] + (e + ("</" + tag + ">")))
         == Some(Cell(Unescape(e), tag == "th", ReadSpans(attrs).0, ReadSpans(attrs).1))
  {
    var close := "</" + tag + ">";
    var afterTag := attrs + ['>'] + (e + close);
    TakeUntilStops(attrs, '>', e + close);
    assert afterTag[|attrs| + 1..] == e + close;
    ReadCellContentOf(tag, attrs, e);
  }

  lemma ReadCellContentOf(tag: string, attrs: string, e: string)
    requires '<' !in e
    ensures ReadCellContent(tag, attrs, e + ("</" + tag + ">"))
         == Some(Cell(Unescape(e), tag == "th", ReadSpans(attrs).0, ReadSpans(attrs).1))
  {
    var afterOpen := e + ("</" + tag + ">");
    assert afterOpen == e + ['<'] + ("/" + tag + ">");
    TakeUntilStops(e, '<', "/" + tag + ">");
    assert afterOpen[|e|..] == "</" + tag + ">";
  }

  /** A cell line reads back as the cell it was written from: header role,
      spans as a reader sees them, and the stripped text after decoding. */
  lemma CellLineReadsBack(c: Cell)
    ensures ReadCellLine(CellLine(c)) == Some(Cell(c.text, c.header, Shown(c.rowSpan), Shown(c.colSpan)))
  {
    var e := EscapeHtml(c.text);
    assert '<' !in e;
    NoCloseInSpanAttrs(c.rowSpan, c.colSpan);
    ReadCellLineOf(CellTag(c), SpanAttrs(c.rowSpan, c.colSpan), e);
    ReadSpansOfSpanAttrs(c.rowSpan, c.colSpan);
    UnescapeEscape(c.text);
  }

  // ---------------------------------------------------------------------
  // Reading the grid out of the item, in the order code.py evaluates it.

  /** One cell: `text` (default '') stripped, either header flag truthy,
      spans (default 1) compared with 1. */
  function ReadCell(v: Json): (r: Result<Cell>)
    ensures r.Err? ==> r.error in {AttributeError, TypeError}
    ensures !v.JObj? ==> r == Err(AttributeError)
    ensures r.Ok? ==> v.JObj? && (r.value.header <==>
              Truthy(Member(v, "column_header").GetOr(JBool(false))) || Truthy(Member(v, "row_header").GetOr(JBool(false))))
    ensures r.Ok? && Member(v, "row_span").None? ==> r.value.rowSpan == 1
    ensures r.Ok? && Member(v, "col_span").None? ==> r.value.colSpan == 1
    ensures r.Ok? ==> TextField(v).JStr? && r.value.text == Strip(TextField(v).s)
    ensures r.Ok? ==> SpanOf(v, "row_span") == Ok(r.value.rowSpan) && SpanOf(v, "col_span") == Ok(r.value.colSpan)
    ensures v.JObj? ==> (r.Ok? <==> TextField(v).JStr? && SpanOf(v, "row_span").Ok? && SpanOf(v, "col_span").Ok?)
  {
    var rawText :- Get(v, "text", JStr(""));
    var text :- StripValue(rawText);
    var columnHeader := Get(v, "column_header", JBool(false)).value;
    var rowHeader := Get(v, "row_header", JBool(false)).value;
    var rs :- SpanOf(v, "row_span");
    var cs :- SpanOf(v, "col_span");
    Ok(Cell(text, Truthy(columnHeader) || Truthy(rowHeader), rs, cs))
  }

  /** `cell.get(name, 1)` as the number `> 1` compares: the lookup cannot
      fail on a dict, the comparison fails on anything but an int or bool. */
  function SpanOf(v: Json, name: string): (r: Result<int>)
    requires v.JObj?
    ensures Member(v, name).None? ==> r == Ok(1)
    ensures r.Err? <==> Member(v, name).Some? && !(Member(v, name).value.JInt? || Member(v, name).value.JBool?)
    ensures r.Err? ==> r.error == TypeError
    ensures Member(v, name).Some? && Member(v, name).value.JInt? ==> r == Ok(Member(v, name).value.i)
    ensures Member(v, name).Some? && Member(v, name).value.JBool? ==> r == Ok(if Member(v, name).value.b then 1 else 0)
  {
    AsNumber(Get(v, name, JInt(1)).value)
  }

  /** Reads every value of a sequence in order; the first failure wins.
      It is the loop shape of both the row and the cell readers. */
  function ReadAll<T>(read: Json -> Result<T>, vs: seq<Json>): (r: Result<seq<T>>)
    ensures r.Ok? ==> |r.value| == |vs|
    decreases |vs|
  {
    if vs == [] then Ok([])
    else
      var x :- read(vs[0]);
      var xs :- ReadAll(read, vs[1..]);
      Ok([x] + xs)
  }

  /** A sequence reads when each of its values does, to what each reads
      to; when it fails, it fails with the error of its first failing value. */
  lemma {:induction false} ReadAllEach<T>(read: Json -> Result<T>, vs: seq<Json>)
    ensures ReadAll(read, vs).Ok? <==> forall j :: 0 <= j < |vs| ==> read(vs[j]).Ok?
    ensures ReadAll(read, vs).Ok? ==> forall j :: 0 <= j < |vs| ==> read(vs[j]) == Ok(ReadAll(read, vs).value[j])
    ensures ReadAll(read, vs).Err? ==>
              exists k :: 0 <= k < |vs| && read(vs[k]) == Err(ReadAll(read, vs).error)
                          && forall j :: 0 <= j < k ==> read(vs[j]).Ok?
    decreases |vs|
  {
    if vs != [] {
      var tail := vs[1..];
      ReadAllEach(read, tail);
      assert forall j :: 0 <= j < |tail| ==> tail[j] == vs[j + 1];
      var head := read(vs[0]);
      if head.Ok? && ReadAll(read, tail).Err? {
        var k :| 0 <= k < |tail| && read(tail[k]) == Err(ReadAll(read, tail).error)
                 && forall j :: 0 <= j < k ==> read(tail[j]).Ok?;
        assert read(vs[k + 1]) == Err(ReadAll(read, vs).error);
        forall j | 0 <= j < k + 1 ensures read(vs[j]).Ok? {
          if j > 0 {
            assert vs[j] == tail[j - 1];
          }
        }
      } else if head.Ok? {
        var r := ReadAll(read, vs).value;
        var rest := ReadAll(read, tail).value;
        assert r == [head.value] + rest;
        forall j | 0 <= j < |vs| ensures read(vs[j]) == Ok(r[j]) {
          if j > 0 {
            assert vs[j] == tail[j - 1] && r[j] == rest[j - 1];
          }
        }
      }
    }
  }

  /** The cells of a row, in order. */
  function ReadRow(row: Json): (r: Result<seq<Cell>>)
    ensures r.Err? ==> r.error in {AttributeError, TypeError}
    ensures !(row.JArr? || row.JStr? || row.JObj?) ==> r == Err(TypeError)
    ensures r.Ok? ==> Iterate(row).Ok? && |r.value| == |Iterate(row).value|
    ensures r.Ok? ==> forall j :: 0 <= j < |r.value| ==> ReadCell(Iterate(row).value[j]) == Ok(r.value[j])
    ensures Iterate(row).Ok? ==> (r.Ok? <==> forall j :: 0 <= j < |Iterate(row).value| ==> ReadCell(Iterate(row).value[j]).Ok?)
  {
    var cells :- Iterate(row);
    ReadAllEach(ReadCell, cells);
    ReadAll(ReadCell, cells)
  }

  function ReadGrid(grid: Json): (r: Result<seq<seq<Cell>>>)
    ensures r.Err? ==> r.error in {AttributeError, TypeError}
    ensures grid.JArr? && r.Ok? ==> |r.value| == |grid.items|
    ensures r.Ok? ==> Iterate(grid).Ok? && |r.value| == |Iterate(grid).value|
    ensures r.Ok? ==> forall i :: 0 <= i < |r.value| ==> ReadRow(Iterate(grid).value[i]) == Ok(r.value[i])
    ensures Iterate(grid).Ok? ==> (r.Ok? <==> forall i :: 0 <= i < |Iterate(grid).value| ==> ReadRow(Iterate(grid).value[i]).Ok?)
  {
    var rows :- Iterate(grid);
    ReadAllEach(ReadRow, rows);
    ReadAll(ReadRow, rows)
  }

  /** The grid of a well-shaped table item: `item["data"]["grid"]`. */
  function GridOf(item: Json): Option<Json> {
    match Member(item, "data")
    case None => None
    case Some(data) => Member(data, "grid")
  }

  /** `process_table_item(table_item)`. */
  function ProcessTableItem(item: Json): (r: Result<string>)
    ensures r.Err? ==> r.error in {AttributeError, TypeError}
    ensures GridOf(item).Some? ==> (r.Err? <==> ReadGridFails(item))
    ensures item.JObj? && (Member(item, "data").None? || Member(item, "data").value.JObj?) ==>
              (r == Ok([]) <==> GridOf(item).None? || !Truthy(GridOf(item).value))
    ensures GridOf(item).Some? && Truthy(GridOf(item).value) && ReadGrid(GridOf(item).value).Ok? ==>
              r == Ok(Join(TableLines(ReadGrid(GridOf(item).value).value), "\n"))
  {
    var hasData :- Contains(item, "data");
    if !hasData then Ok([])
    else
      var data :- GetItem(item, KName("data"));
      var hasGrid :- Contains(data, "grid");
      if !hasGrid then Ok([])
      else
        var grid :- GetItem(data, KName("grid"));
        if !Truthy(grid) then Ok([])
        else
          var rows :- ReadGrid(grid);
          var html := Join(TableLines(rows), "\n");
          assert html != [] by {
            assert "<table>" != [];
            JoinStartsWithFirst(TableLines(rows), "\n");
          }
          Ok(html)
  }

  /** What `ReadCell` makes of a dict cell, spelled out: the stripped
      text, either header flag, and the two spans as compared with 1. */
  predicate ReadsAs(v: Json, c: Cell) {
    v.JObj? && TextField(v).JStr? && SpanOf(v, "row_span").Ok? && SpanOf(v, "col_span").Ok? &&
    c == Cell(Strip(TextField(v).s),
              Truthy(Member(v, "column_header").GetOr(JBool(false))) || Truthy(Member(v, "row_header").GetOr(JBool(false))),
              SpanOf(v, "row_span").value, SpanOf(v, "col_span").value)
  }

  /** Row `i` of a table item whose grid reads as `rows`: the item renders
      as the joined lines of `rows` (placed by `RowLines`), and the row's
      cell dicts, in order, read as the row's cells. */
  lemma ItemRow(item: Json, rows: seq<seq<Cell>>, i: nat)
    requires GridOf(item).Some? && Truthy(GridOf(item).value) && ReadGrid(GridOf(item).value) == Ok(rows)
    requires i < |rows|
    ensures ProcessTableItem(item) == Ok(Join(TableLines(rows), "\n"))
    ensures var grid := Iterate(GridOf(item).value);
            grid.Ok? && i < |grid.value| && Iterate(grid.value[i]).Ok? && |Iterate(grid.value[i]).value| == |rows[i]| &&
            forall j :: 0 <= j < |rows[i]| ==> ReadsAs(Iterate(grid.value[i]).value[j], rows[i][j])
  {
    GridRowReads(GridOf(item).value, rows, i);
  }

  /** Row `i` of a grid that reads: its cell dicts read, in order, as the row's cells. */
  lemma GridRowReads(grid: Json, rows: seq<seq<Cell>>, i: nat)
    requires ReadGrid(grid) == Ok(rows) && i < |rows|
    ensures Iterate(grid).Ok? && i < |Iterate(grid).value|
    ensures var row := Iterate(grid).value[i];
            Iterate(row).Ok? && |Iterate(row).value| == |rows[i]| &&
            forall j :: 0 <= j < |rows[i]| ==> ReadsAs(Iterate(row).value[j], rows[i][j])
  {
    var row := Iterate(grid).value[i];
    assert ReadRow(row) == Ok(rows[i]);
    forall j | 0 <= j < |rows[i]| ensures ReadsAs(Iterate(row).value[j], rows[i][j]) {
      assert ReadCell(Iterate(row).value[j]) == Ok(rows[i][j]);
    }
  }

  /** Row `i`'s lines in the table: `<tr>`, one line per cell, `</tr>`. */
  lemma RowLines(rows: seq<seq<Cell>>, i: nat)
    requires i < |rows|
    ensures 2 + RowStart(rows, i) + |rows[i]| < |TableLines(rows)|
    ensures TableLines(rows)[1 + RowStart(rows, i)] == "  <tr>"
    ensures forall j :: 0 <= j < |rows[i]| ==> TableLines(rows)[2 + RowStart(rows, i) + j] == CellLine(rows[i][j])
    ensures TableLines(rows)[2 + RowStart(rows, i) + |rows[i]|] == "  </tr>"
  {
    RowCells(rows, i);
    TableRow(rows, i);
  }

  /** Every cell line of row `i`, in place. */
  lemma RowCells(rows: seq<seq<Cell>>, i: nat)
    requires i < |rows|
    ensures 2 + RowStart(rows, i) + |rows[i]| < |TableLines(rows)|
    ensures forall j :: 0 <= j < |rows[i]| ==> TableLines(rows)[2 + RowStart(rows, i) + j] == CellLine(rows[i][j])
  {
    assert 2 + RowStart(rows, i) + |rows[i]| < |TableLines(rows)| by { TableRow(rows, i); }
    forall j | 0 <= j < |rows[i]| ensures TableLines(rows)[2 + RowStart(rows, i) + j] == CellLine(rows[i][j]) {
      TableCell(rows, i, j);
    }
  }

  /** True when the item's data is a dict with a truthy grid that fails to read. */
  predicate ReadGridFails(item: Json) {
    GridOf(item).Some? && Truthy(GridOf(item).value) && ReadGrid(GridOf(item).value).Err?
  }

  lemma JoinStartsWithFirst(parts: seq<string>, sep: string)
    requires |parts| >= 1
    ensures parts[0] <= Join(parts, sep)
  {
  }
}

=== FILE: text.dfy ===
/** `process_text_item`: one text item of the document becomes one block
    element, or nothing when its text is blank. */
module TextItem {
  import opened Strings
  import opened Json
  import opened Escape
  import opened Markup

  /** Bold text longer than this many characters is taken for a heading. */
  const HeadingLength: nat := 50

  /** What the renderer reads from a text item: its stripped text, the
      truthiness of the four formatting flags, and its label. */
  datatype TextNode = TextNode(
    text: string,
    bold: bool,
    italic: bool,
    underline: bool,
    strikethrough: bool,
    itemLabel: Json)

  /** The block element of non-blank text: bold text is a paragraph when
      short and a second-level heading when long, whatever its label;
      otherwise `title` gives h1, `heading` gives h3, anything else p. */
  function BlockTag(t: TextNode): string {
    if t.bold then (if |t.text| > HeadingLength then "h2" else "p")
    else if t.itemLabel == JStr("title") then "h1"
    else if t.itemLabel == JStr("heading") then "h3"
    else "p"
  }

  /** The one inline element around the escaped text, if any: strong for
      short bold text; otherwise the first of em, u, del whose flag is set,
      in that priority. */
  function InlineTag(t: TextNode): Option<string> {
    if t.bold && |t.text| <= HeadingLength then Some("strong")
    else if t.italic then Some("em")
    else if t.underline then Some("u")
    else if t.strikethrough then Some("del")
    else None
  }

  function Wrap(tag: Option<string>, inner: string): string {
    match tag
    case None => inner
    case Some(name) => Element(name, inner)
  }

  /** The markup of a text node, following the branches of code.py. */
  function RenderText(t: TextNode): (r: string)
    ensures r == [] <==> t.text == []
    ensures t.text != [] ==> r == Element(BlockTag(t), Wrap(InlineTag(t), EscapeHtml(t.text)))
  {
    if t.text == [] then []
    else if t.bold && |t.text| <= HeadingLength then
      var htmlTag := "strong";
      Element("p", Element(htmlTag, EscapeHtml(t.text)))
    else
      var htmlTag := if t.bold then "h2" else "p";
      var inner :=
        if t.italic then Element("em", EscapeHtml(t.text))
        else if t.underline then Element("u", EscapeHtml(t.text))
        else if t.strikethrough then Element("del", EscapeHtml(t.text))
        else EscapeHtml(t.text);
      if htmlTag == "h2" then Element("h2", inner)
      else if t.itemLabel == JStr("title") then Element("h1", inner)
      else if t.itemLabel == JStr("heading") then Element("h3", inner)
      else Element("p", inner)
  }

  /** `item.get('formatting', {})` of a dict item. */
  function FormattingOf(item: Json): Json {
    Member(item, "formatting").GetOr(JObj([]))
  }

  /** `item.get('label', 'paragraph')` of a dict item. */
  function LabelOf(item: Json): Json {
    Member(item, "label").GetOr(JStr("paragraph"))
  }

  /** Whether `formatting.get(name)` is truthy: a missing flag is None. */
  predicate Flag(formatting: Json, name: string) {
    Truthy(Member(formatting, name).GetOr(JNull))
  }

  /** The node of a dict item whose formatting is a dict, for its stripped text. */
  function NodeOf(item: Json, text: string): TextNode {
    var formatting := FormattingOf(item);
    TextNode(text, Flag(formatting, "bold"), Flag(formatting, "italic"),
             Flag(formatting, "underline"), Flag(formatting, "strikethrough"), LabelOf(item))
  }

  /** Reads the formatting flags and the label of a dict item, in the
      order code.py reads them; only a `formatting` value without `get` fails. */
  function ReadTextNode(item: Json, text: string): (r: Result<TextNode>)
    requires item.JObj?
    ensures r.Err? <==> !FormattingOf(item).JObj?
    ensures r.Err? ==> r.error == AttributeError
    ensures r.Ok? ==> r.value == NodeOf(item, text)
    ensures !HasKey(item.fields, "formatting") ==>
              r.Ok? && !r.value.bold && !r.value.italic && !r.value.underline && !r.value.strikethrough
    ensures !HasKey(item.fields, "label") ==> r.Ok? ==> r.value.itemLabel == JStr("paragraph")
  {
    var formatting := Get(item, "formatting", JObj([])).value;
    var itemLabel := Get(item, "label", JStr("paragraph")).value;
    if !formatting.JObj? then Err(AttributeError)
    else
      var bold := Get(formatting, "bold", JNull).value;
      var italic := Get(formatting, "italic", JNull).value;
      var underline := Get(formatting, "underline", JNull).value;
      var strikethrough := Get(formatting, "strikethrough", JNull).value;
      Ok(TextNode(text, Truthy(bold), Truthy(italic), Truthy(underline), Truthy(strikethrough), itemLabel))
  }

  /** A dict item with non-blank str text and dict formatting. */
  predicate Renderable(item: Json) {
    item.JObj? && TextField(item).JStr? && !AllSpace(TextField(item).s) && FormattingOf(item).JObj?
  }

  /** `process_text_item(text_item)`. */
  function ProcessTextItem(item: Json): (r: Result<string>)
    ensures !item.JObj? ==> r == Err(AttributeError)
    ensures r.Err? ==> r.error == AttributeError
    ensures r == Ok([]) <==>
              (var raw := Get(item, "text", JStr(""));
               raw.Ok? && raw.value.JStr? && AllSpace(raw.value.s))
    ensures r.Err? <==>
              !item.JObj? || !TextField(item).JStr? || (!AllSpace(TextField(item).s) && !FormattingOf(item).JObj?)
    ensures Renderable(item) ==> r == Ok(RenderText(NodeOf(item, Strip(TextField(item).s))))
  {
    var raw :- Get(item, "text", JStr(""));
    var text :- StripValue(raw);
    if text == [] then Ok([])
    else
      var node :- ReadTextNode(item, text);
      Ok(RenderText(node))
  }

  /** A bold item whose text, once stripped, is at most 50 characters is
      a strong paragraph, whatever its other flags and label. */
  lemma ShortBoldItem(item: Json, pre: string, core: string, post: string)
    requires item.JObj? && FormattingOf(item).JObj? && Flag(FormattingOf(item), "bold")
    requires TextField(item) == JStr(pre + core + post) && AllSpace(pre) && AllSpace(post)
    requires core != [] && !IsSpace(core[0]) && !IsSpace(core[|core| - 1])
    requires |core| <= HeadingLength
    ensures ProcessTextItem(item) == Ok(Element("p", Element("strong", EscapeHtml(core))))
  {
    PaddedItem(item, pre, core, post);
    BoldHeadingBoundary(NodeOf(item, core));
  }

  /** A bold item whose text, once stripped, is longer than 50 characters
      is an h2 around the text, emphasised by the first of italic,
      underline, strikethrough. */
  lemma LongBoldItem(item: Json, pre: string, core: string, post: string)
    requires item.JObj? && FormattingOf(item).JObj? && Flag(FormattingOf(item), "bold")
    requires TextField(item) == JStr(pre + core + post) && AllSpace(pre) && AllSpace(post)
    requires core != [] && !IsSpace(core[0]) && !IsSpace(core[|core| - 1])
    requires |core| > HeadingLength
    ensures ProcessTextItem(item) == Ok(Element("h2", Wrap(InlineTag(NodeOf(item, core)), EscapeHtml(core))))
  {
    PaddedItem(item, pre, core, post);
    BoldHeadingBoundary(NodeOf(item, core));
  }

  /** A non-bold item takes its element from its label: `title` is h1,
      `heading` h3, any other label p. */
  lemma LabelledItem(item: Json)
    requires Renderable(item) && !Flag(FormattingOf(item), "bold")
    ensures var text := Strip(TextField(item).s);
            var block := if LabelOf(item) == JStr("title") then "h1"
                         else if LabelOf(item) == JStr("heading") then "h3" else "p";
            ProcessTextItem(item) == Ok(Element(block, Wrap(InlineTag(NodeOf(item, text)), EscapeHtml(text))))
  {
    var node := NodeOf(item, Strip(TextField(item).s));
    assert !node.bold && node.text != [];
    assert BlockTag(node) == (if LabelOf(item) == JStr("title") then "h1"
                              else if LabelOf(item) == JStr("heading") then "h3" else "p");
  }

  /** Whitespace around an item's text changes nothing in its markup. */
  lemma PaddedItem(item: Json, pre: string, core: string, post: string)
    requires item.JObj? && FormattingOf(item).JObj?
    requires TextField(item) == JStr(pre + core + post) && AllSpace(pre) && AllSpace(post)
    requires core != [] && !IsSpace(core[0]) && !IsSpace(core[|core| - 1])
    ensures ProcessTextItem(item) == Ok(RenderText(NodeOf(item, core)))
  {
    StripPadded(pre, core, post);
    assert !AllSpace(pre + core + post) by {
      assert (pre + core + post)[|pre|] == core[0];
    }
  }

  /** A text item that renders (a dict whose text is a str and, unless the
      text is blank, whose formatting is a dict) shows a reader, once
      decoded, exactly its stripped text. */
  lemma ItemVisibleText(item: Json)
    requires item.JObj? && TextField(item).JStr?
    requires AllSpace(TextField(item).s) || FormattingOf(item).JObj?
    ensures ProcessTextItem(item).Ok?
    ensures Unescape(TextContent(ProcessTextItem(item).value)) == Strip(TextField(item).s)
  {
    var text := Strip(TextField(item).s);
    if AllSpace(TextField(item).s) {
      assert TextContent([]) == [];
      assert Unescape([]) == [];
    } else {
      VisibleText(NodeOf(item, text));
    }
  }

  /** The text a reader sees in the rendered fragment, once decoded, is
      the stripped text of the item: every tag is markup of the renderer's
      own and the text is escaped exactly once. */
  lemma VisibleText(t: TextNode)
    ensures Unescape(TextContent(RenderText(t))) == t.text
  {
    if t.text == [] {
      assert TextContent([]) == [];
      assert Unescape([]) == [];
    } else {
      var e := EscapeHtml(t.text);
      assert '<' !in e;
      TagsAreNames(t);
      WrappedText(BlockTag(t), InlineTag(t), e);
      assert TextContent(RenderText(t)) == e;
      UnescapeEscape(t.text);
    }
  }

  /** Neither tag name contains the `>` that would end a tag early. */
  lemma TagsAreNames(t: TextNode)
    ensures '>' !in BlockTag(t)
    ensures InlineTag(t).Some? ==> '>' !in InlineTag(t).value
  {
  }

  /** The text of a block element around an optional inline element is
      the content inside both. */
  lemma WrappedText(block: string, inline: Option<string>, e: string)
    requires '>' !in block && '<' !in e
    requires inline.Some? ==> '>' !in inline.value
    ensures TextContent(Element(block, Wrap(inline, e))) == e
  {
    match inline
    case None =>
      ElementText(block, e, []);
      assert Element(block, e) + [] == Element(block, e);
      assert e + [] == e;
    case Some(tag) =>
      NestedElementText(block, tag, e);
  }

  /** The heading heuristic's boundary: non-blank bold text of at most 50
      characters is a strong paragraph and longer bold text an h2. */
  lemma BoldHeadingBoundary(t: TextNode)
    requires t.bold && t.text != []
    ensures |t.text| <= HeadingLength ==>
              RenderText(t) == Element("p", Element("strong", EscapeHtml(t.text)))
    ensures |t.text| > HeadingLength ==>
              RenderText(t) == Element("h2", Wrap(InlineTag(t), EscapeHtml(t.text)))
  {
  }

  /** The label plays no part in rendering bold text. */
  lemma BoldIgnoresLabel(t: TextNode, l: Json)
    requires t.bold
    ensures RenderText(t.(itemLabel := l)) == RenderText(t)
  {
  }

  /** Short bold text ignores every other flag and the label. */
  lemma ShortBoldIgnoresOtherFlags(t: TextNode, italic: bool, underline: bool, strikethrough: bool, itemLabel: Json)
    requires t.bold && |t.text| <= HeadingLength
    ensures RenderText(t.(italic := italic, underline := underline, strikethrough := strikethrough, itemLabel := itemLabel))
         == RenderText(t)
  {
  }
}
